=== FILE: README.md ===
# A verified model of the `.s25` sprite-archive decoder

This project models the Rust crate `s25decoder`. That crate reads `.s25` archives, the layered sprite archives of certain visual-novel games, and decodes an entry into an RGBA pixel buffer.

An archive has the following layout:

- It starts with the magic `S25\0`.
- Then comes an `i32` entry count, followed by one `i32` file offset per entry. An offset of 0 marks an absent entry.
- An image entry starts with a 20-byte local header of five words: width, height, x offset, y offset and flags. Bit 31 of the flags marks an *incremental* image.
- After the local header comes one row offset per row of the image.
- A row at an even offset is a 16-bit length followed by that many bytes of run-length chunks. A row at an odd offset has one padding byte after the length, and its length has bit 0 cleared, so it always holds an even number of chunk bytes.
- Each chunk starts with a header word. The header holds a method, a byte skip and a pixel count, or an extended 32-bit count when the 11-bit count is 0.
- Methods 2 and 4 copy B,G,R triples or A,B,G,R quadruples.
- Methods 3 and 5 fill with one colour.
- Every other method moves the pixel cursor without writing.

The model is written in five modules:

- `Bytes` covers machine integers. It defines the `i16`/`i32` values read from little-endian bytes, the `as` casts, and the encode/decode round trips.
- `Errors` holds the crate's `Error` enum. Every `panic` of the Rust code is a `Panicked` outcome in the same `Result`: a slice index out of range, an arithmetic overflow or a `Vec` capacity overflow. The crate's arithmetic is modelled with Rust's overflow checks on.
- `Io` covers `utils::io::read_i16`/`read_i32` and the in-memory cursor (`BufReader<Cursor<&[u8]>>`). The cursor is the class `Reader`. Functions say what a read at a given position yields.
- `LineDecoder` covers `decode_line`. Pure functions (`ReadChunk`, `Step`, `Run`, `DecodeLine`) follow the source loop by loop. Lemmas say which pixels each method writes and when it panics. The in-place methods (`PutPixel`, `CopyBgrInto`, `FillInto`, `CopyAbgrInto`, `ApplyInto`, `StepInto`, `DecodeLineInto`) run the same loops on an `array<u8>`. Each is proved to end in exactly the state, or the panic, that the functions give.
- `S25` covers the archive. The class `Archive` holds the cursor and the entry list. Its methods (`FromRawBytes`, `LoadImageMetadata`, `Unpack`, `LoadImage`) go through the cursor, and each is proved equal to a function of the archive bytes (`Directory`, `MetadataAt`, `Unpacked`, `ImageAt`). Lemmas state what those functions yield.

Three facts about the crate shape the model:

- Directory entries carry only a file offset; there is no entry length.
- Width and height are signed `i32` values, and nothing rejects a negative one as such. What happens depends on the entry:
  - An incremental entry whose width × height is a non-negative `i32` (for example width -1 and height 0, or width -2 and height -3) allocates that many pixels at s25.rs:149. It is then refused with `UnsupportedFileFormat` (s25.rs:161-164) before any capacity is computed (`IncrementalRefused`).
  - Any entry whose width × height overflows an `i32` or is negative panics at the size computation `(width * height) as usize * 4` (s25.rs:149).
  - Otherwise a non-incremental entry with a negative height panics at `Vec::with_capacity` (s25.rs:168).
  - Otherwise a non-incremental entry with a negative width panics at the second `Vec::with_capacity` (s25.rs:174) once its row table has been read. If that table runs past the end of the archive, it fails with an I/O error first (`UnpackedShape`).
- A malformed row never yields an error result, because `decode_line` returns nothing. Either it panics (slice index out of range, arithmetic overflow), or it is decoded only in part and nothing says so. Three examples of the second kind:
  - a method-2 run reaching the end of the row stops early (the check at s25.rs:237-239);
  - a count larger than the room left in the buffer writes only what fits;
  - a row that ends while pixels are still owed ends the loop (the condition at s25.rs:204).

## Model

| member | source | states |
|---|---|---|
| `Bytes.I16RoundTrip` | s25decoder/src/utils.rs:4-8 | decoding the little-endian encoding of any `i16` gives it back |
| `Bytes.I16Bytes` | s25decoder/src/utils.rs:4-8 | encoding the `i16` read from any 2 bytes gives those bytes back, so `read_i16` loses nothing |
| `Bytes.I32RoundTrip` | s25decoder/src/utils.rs:10-14 | decoding the little-endian encoding of any `i32` gives it back |
| `Bytes.I32Bytes` | s25decoder/src/utils.rs:10-14 | encoding the `i32` read from any 4 bytes gives those bytes back |
| `Bytes.SignBit` | s25decoder/src/s25.rs:135 | `word as u32 & 0x80000000` is set exactly when bit 7 of the word's last byte is set |
| `Bytes.ZeroWord` | s25decoder/src/s25.rs:84 | an `i32` is 0 exactly when its encoding is four zero bytes |
| `Io.ReadI16At` | s25decoder/src/utils.rs:4-8 | succeeds exactly when 2 bytes remain, yielding the `i16` that encodes to them; otherwise an I/O error |
| `Io.ReadI32At` | s25decoder/src/utils.rs:10-14 | succeeds exactly when 4 bytes remain, yielding the `i32` that encodes to them; otherwise an I/O error |
| `Io.ReadI32s` | s25decoder/src/s25.rs:169-171 | n successive `read_i32` calls yield n words when they succeed, and fail only with an I/O error |
| `Io.ReadI32sFails` | s25decoder/src/s25.rs:169-171 | n words are read exactly when n is 0 or 4n bytes remain; otherwise an I/O error |
| `Io.ReadI32sWord` | s25decoder/src/s25.rs:169-171 | word i of a successful read is the `i32` of the i-th 4-byte group |
| `Io.ReadI32sShape` | s25decoder/src/s25.rs:169-171 | both of the above, with each word's encoding equal to its 4-byte group |
| `Io.Reader.constructor` | s25decoder/src/s25.rs:67 | a new cursor over the bytes stands at position 0 |
| `Io.Reader.Seek` | s25decoder/src/s25.rs:129 | seeking always succeeds and sets the position, even past the end |
| `Io.Reader.ReadExact` | s25decoder/src/s25.rs:189 | yields exactly what `ReadAt` says at the old position and, on success, advances past the bytes read |
| `Io.Reader.ReadI16` | s25decoder/src/utils.rs:4-8 | yields what `ReadI16At` says at the old position and, on success, advances by 2 |
| `Io.Reader.ReadI32` | s25decoder/src/utils.rs:10-14 | yields what `ReadI32At` says at the old position and, on success, advances by 4 |
| `LineDecoder.DecodeHeader` | s25decoder/src/s25.rs:213-217 | method < 8, skip < 4 and count < 0x800, and the three fields recompose the 16-bit header word |
| `LineDecoder.ReadChunk` | s25decoder/src/s25.rs:205-231 | reading a chunk head never yields an error, only an index or overflow panic; on success the row position has moved past the rounded-up position and the header, the clamped count is at most the pixels owed, and subtracting it does not overflow; `ChunkShort`, `ChunkLong` and `ChunkPanics` characterise it fully |
| `LineDecoder.HeaderOf` | s25decoder/src/s25.rs:208-217 | every method below 8, skip below 4 and count below 0x800 make one 16-bit header word, and decoding that word gives them back |
| `LineDecoder.ChunkShort` | s25decoder/src/s25.rs:205-231 | a header encoding method m, skip s and a count c from 1 to 0x7ff at the row position rounded up to even gives method m, the count min(c, pixels owed), and a row position past the header and the s skipped bytes |
| `LineDecoder.ChunkLong` | s25decoder/src/s25.rs:205-231 | a header encoding method m, skip s and count 0, followed after the skipped bytes by the 4-byte `i32` n, gives method m, the count min(n, pixels owed) and a row position past n; it panics with an overflow exactly when subtracting that count from the pixels owed leaves the `i32` range |
| `LineDecoder.ChunkPanics` | s25decoder/src/s25.rs:205-231 | reading a chunk head panics exactly when the header word runs past the row end, when an extended count runs past it, or when `count_remaining -= count` overflows for a negative extended count |
| `LineDecoder.CopyBgr` | s25decoder/src/s25.rs:234-249 | method 2 never yields an error, panics only on arithmetic overflow, keeps the pixels owed and the buffer size, and does not move back in the row |
| `LineDecoder.CopyBgrPanics` | s25decoder/src/s25.rs:234-249 | method 2 panics exactly when it must write a pixel while `*offset + 4` overflows; its row reads are all guarded |
| `LineDecoder.CopyBgrRun` | s25decoder/src/s25.rs:234-249 | method 2 writes min(count, room in the buffer, whole triples left in the row) pixels, advances 4 bytes in the buffer and 3 in the row per pixel, and changes no other byte |
| `LineDecoder.CopyBgrFirst` | s25decoder/src/s25.rs:241-244 | the first pixel method 2 writes is the opaque pixel R,G,B,0xff of the triple at the row position |
| `LineDecoder.CopyBgrPixel` | s25decoder/src/s25.rs:236-248 | the k-th pixel method 2 writes is the opaque pixel of the k-th triple from the row position |
| `LineDecoder.CopyBgrPixels` | s25decoder/src/s25.rs:236-248 | every pixel method 2 writes is the opaque pixel of the matching triple |
| `LineDecoder.Fill` | s25decoder/src/s25.rs:255-266 | a fill loop never yields an error, panics only on arithmetic overflow, keeps the pixels owed and the buffer size, and does not move in the row |
| `LineDecoder.FillPanics` | s25decoder/src/s25.rs:255-266 | a fill loop panics exactly when it must write a pixel while `*offset + 4` overflows |
| `LineDecoder.FillRun` | s25decoder/src/s25.rs:292-302 | a fill writes min(count, room in the buffer) pixels, 4 bytes each, and changes no other byte |
| `LineDecoder.FillPixel` | s25decoder/src/s25.rs:292-302 | each pixel a fill writes is its colour |
| `LineDecoder.FillWrites` | s25decoder/src/s25.rs:255-266 | a fill writes exactly min(count, room) copies of its colour and nothing else |
| `LineDecoder.FillBgrChunk` | s25decoder/src/s25.rs:250-270 | method 3 panics exactly when the row holds no whole triple at the position (even for a count of 0) or `*offset + 4` overflows; otherwise it consumes 3 row bytes and writes min(count, room) opaque copies of that colour |
| `LineDecoder.CopyAbgr` | s25decoder/src/s25.rs:271-286 | method 4 never yields an error, never overflows a capacity, keeps the pixels owed and the buffer size, and does not move back in the row |
| `LineDecoder.CopyAbgrPanics` | s25decoder/src/s25.rs:273-285 | with no check on the row, method 4 panics exactly when a pixel it must write lacks a whole quadruple in the row, or `*offset + 4` overflows |
| `LineDecoder.CopyAbgrRun` | s25decoder/src/s25.rs:271-286 | method 4 writes min(count, room) pixels, advancing 4 bytes in the buffer and 4 in the row per pixel, and changes no other byte |
| `LineDecoder.CopyAbgrFirst` | s25decoder/src/s25.rs:278-281 | the first pixel method 4 writes is R,G,B,A of the quadruple A,B,G,R at the row position |
| `LineDecoder.CopyAbgrPixel` | s25decoder/src/s25.rs:273-285 | the k-th pixel method 4 writes comes from the k-th quadruple from the row position |
| `LineDecoder.CopyAbgrPixels` | s25decoder/src/s25.rs:273-285 | every pixel method 4 writes comes from the matching quadruple |
| `LineDecoder.FillAbgrChunk` | s25decoder/src/s25.rs:287-306 | method 5 panics exactly when the row holds no whole quadruple at the position or `*offset + 4` overflows; otherwise it consumes 4 row bytes and writes min(count, room) copies of that colour |
| `LineDecoder.Skip` | s25decoder/src/s25.rs:307-313 | any other method moves the cursor by 4·count bytes (back for a negative count) and changes nothing else; it panics, always with an arithmetic overflow, exactly when `-count` overflows (count = `i32::MIN`) or the new cursor leaves the `usize` range |
| `LineDecoder.Apply` | s25decoder/src/s25.rs:233-314 | dispatching on the method never yields an error or a capacity overflow, keeps the pixels owed and the buffer size, and does not move back in the row |
| `LineDecoder.Step` | s25decoder/src/s25.rs:204-314 | one chunk never yields an error or a capacity overflow; on success it advances at least 2 bytes in the row, keeps the buffer size and leaves the pixels owed non-negative |
| `LineDecoder.Run` | s25decoder/src/s25.rs:204-315 | the loop ends (or panics, never with a capacity overflow), never with an error; on success no pixels are owed or the row is exhausted, and the buffer size is kept |
| `LineDecoder.DecodeLine` | s25decoder/src/s25.rs:197-316 | decoding a row never yields an error or a capacity overflow, and keeps the buffer size |
| `LineDecoder.PutPixel` | s25decoder/src/s25.rs:241-244 | the four byte stores of a pixel leave the buffer as `Put` says: that pixel at the offset, every other byte unchanged |
| `LineDecoder.CopyBgrInto` | s25decoder/src/s25.rs:236-248 | the in-place loop of method 2 ends at the row position, cursor and buffer that `CopyBgr` gives, or with the same panic |
| `LineDecoder.FillInto` | s25decoder/src/s25.rs:255-266 | the in-place fill loop of methods 3 and 5 ends as `Fill` says, or with the same panic |
| `LineDecoder.CopyAbgrInto` | s25decoder/src/s25.rs:273-285 | the in-place loop of method 4 ends as `CopyAbgr` says, or with the same panic |
| `LineDecoder.ApplyInto` | s25decoder/src/s25.rs:233-314 | the in-place `match method` ends as `Apply` says, or with the same panic |
| `LineDecoder.StepInto` | s25decoder/src/s25.rs:205-314 | one in-place iteration of the loop ends at the row position, pixels owed, cursor and buffer that `Step` gives, or with the same panic |
| `LineDecoder.DecodeLineInto` | s25decoder/src/s25.rs:197-316 | in-place `decode_line` leaves the buffer and the cursor exactly as `DecodeLine` says, or panics as it does |
| `S25.EntryOfWord` | s25decoder/src/s25.rs:79-83 | a 4-byte directory word is an absent entry exactly when its bytes are all 0, and otherwise the entry is the `i32` that encodes to those bytes |
| `S25.Entries` | s25decoder/src/s25.rs:79-85 | one entry per directory word, each as `EntryOf` says |
| `S25.Directory` | s25decoder/src/s25.rs:67-87 | what `from_raw_bytes` reads never panics, and succeeds only past the magic and the count; `DirectoryShape` and `DirectoryEntries` characterise it fully |
| `S25.DirectoryShape` | s25decoder/src/s25.rs:67-87 | opening fails with an I/O error below 4 bytes, with `InvalidArchive` on a wrong magic, and with an I/O error below 8 bytes or on a truncated directory; otherwise it yields max(count, 0) entries, entry i absent exactly when directory word i is four zero bytes, and otherwise the `i32` that encodes to that word |
| `S25.EntriesWords` | s25decoder/src/s25.rs:78-84 | the entries of n directory words read at a position: entry i is absent exactly when word i is four zero bytes, and otherwise encodes to word i |
| `S25.DirectoryEntries` | s25decoder/src/s25.rs:79-85 | a list with the entry of each announced directory word is the directory, when the archive holds all the words |
| `S25.MetadataAt` | s25decoder/src/s25.rs:121-145 | what `load_image_metadata` yields fails only with `NoEntry` or an I/O error, and panics only on arithmetic overflow; `MetadataFields` characterises it fully |
| `S25.MetadataFields` | s25decoder/src/s25.rs:121-145 | `NoEntry` exactly for an index past the directory or an absent entry; a negative offset, or a header running past the end, fails with an I/O error; a header in the archive whose `head` fits an `i32` succeeds; the header overflows computing `head` exactly when it lies in the archive past `i32::MAX - 0x14`; on success the four fields encode to the first 16 header bytes, `incremental` is bit 7 of byte 19, and `head` is offset + 0x14 |
| `S25.ReadFive` | s25decoder/src/s25.rs:131-135 | five successive `read_i32` calls yield the five words at p, p+4, …, p+16 when 20 bytes remain, otherwise an I/O error |
| `S25.ReadRow` | s25decoder/src/s25.rs:178-189 | the row read at a row offset fails only with an I/O error; `ReadRowShape` characterises it fully |
| `S25.ReadRowShape` | s25decoder/src/s25.rs:178-189 | a row is the bytes after its length word, and after the padding byte of an odd offset; there are as many as the unsigned length says, bit 0 cleared for an odd offset; reading fails with an I/O error exactly when the archive ends first |
| `S25.DecodeRows` | s25decoder/src/s25.rs:177-192 | decoding rows fails only with an I/O error or a panic other than a capacity overflow, and keeps the buffer size |
| `S25.DecodeRowsAppend` | s25decoder/src/s25.rs:177-192 | decoding a list of rows splits at any point: the second part starts from the canvas the first part ends with |
| `S25.DecodeRowsLast` | s25decoder/src/s25.rs:173-191 | the rows share one pixel cursor: the last row is decoded by `decode_line` from the canvas, cursor included, that the rows before it leave (not from a cursor reset to 0) |
| `S25.RowOffsets` | s25decoder/src/s25.rs:168-171 | one `row_offset as u32` per row word |
| `S25.Unpacked` | s25decoder/src/s25.rs:159-195 | a successful unpack keeps the buffer size; `UnpackedShape` gives its outcomes |
| `S25.UnpackedShape` | s25decoder/src/s25.rs:159-195 | `UnsupportedFileFormat` exactly for an incremental image; `CapacityOverflow` exactly for a negative height, or a negative width once the `height` row words at `head` are read; an I/O error when those words run past the end; success only for a non-incremental image of non-negative size whose row table lies in the archive |
| `S25.ImageAt` | s25decoder/src/s25.rs:147-157 | a loaded image carries the metadata `load_image_metadata` yields, and that metadata is never incremental; `ImageSize` and `IncrementalRefused` say more |
| `S25.ImageSize` | s25decoder/src/s25.rs:147-157 | a loaded image has exactly width × height × 4 bytes |
| `S25.IncrementalRefused` | s25decoder/src/s25.rs:147-165 | an incremental entry whose pixel count fits is refused with `UnsupportedFileFormat`; otherwise it panics computing the size |
| `S25.Archive.constructor` | s25decoder/src/s25.rs:87 | the archive holds the given cursor and entries |
| `S25.Archive.FromRawBytes` | s25decoder/src/s25.rs:61-88 | succeeds exactly when `Directory` does, with a fresh cursor over the bytes standing just past the directory (8 + 4·entries) and that directory; otherwise it fails as `Directory` does |
| `S25.Archive.TotalLayers` | s25decoder/src/s25.rs:96-98 | at least one layer, and the entries fill the layers before the last and fewer than 100 in the last: (n-1)·100 ≤ entries < n·100 |
| `S25.Archive.LoadImageMetadata` | s25decoder/src/s25.rs:121-145 | seeking and reading through the cursor yields exactly `MetadataAt` of the archive bytes (see `MetadataFields`), and on success leaves the cursor just past the 20-byte header at `offset as u64` |
| `S25.Archive.ReadRowBytes` | s25decoder/src/s25.rs:178-189 | seeking to a row and reading it through the cursor yields exactly `ReadRow` (see `ReadRowShape`), and on success leaves the cursor just past the row |
| `S25.Archive.Unpack` | s25decoder/src/s25.rs:159-195 | the buffer ends as `Unpacked` says, or the call fails as it does; an incremental image leaves the buffer untouched |
| `S25.Archive.LoadImage` | s25decoder/src/s25.rs:147-157 | yields exactly `ImageAt` of the archive bytes: the metadata and the rows decoded into width × height zeroed pixels, or the failure |

## Left out

- `S25Archive::open` (s25.rs:32-57) reads a file from a path. Its logic is that of `from_raw_bytes`, which is modelled; the file system is not.
- The C ABI wrapper (`lib.rs`) and the C++/Qt viewer, including the `variant + 100 * layer` entry mapping, are not part of this model.
- Allocation failure is not modelled, for example `vec![0u8; n]` or `Vec::with_capacity` of a large positive size running out of memory. Only the capacity overflow of a negative size cast to `usize` is modelled.
- Release builds wrap on overflow instead of panicking. The model follows overflow-checked builds.
- An `std::io::Error` is one value, `IoError`. Its kind and message are not kept; every failure here is `UnexpectedEof`.
- `BufReader`'s internal buffer and `decode_buf`'s reused capacity are not modelled. Neither changes what is read.
- Io.Reader.ReadExact: the cursor position after a failed read is left unspecified, since `read_exact` does not promise one. Every later read seeks first.
- S25.Archive.Unpack: the cursor position after the call (the end of the last row read) is not stated.
- S25.Archive.LoadImage: the cursor position after the call is not stated; it is where `Unpack` leaves it.
- Five members are plain definitions with no contract of their own; the lemmas named here state what they mean:
  - `Archive.TotalEntries` is `total_entries`, the length of the entry list; `TotalLayers` states its relation to it.
  - `Io.ReadAt` is `read_exact` at a position; `Reader.ReadExact`, `ReadRowShape` and `DirectoryShape` state its outcomes.
  - `S25.EntryOf` is the `if offset == 0 { None } else { Some(offset) }` of s25.rs:83; `EntryOfWord` states it on the directory bytes.
  - `S25.Zeros` is `vec![0u8; n]`; `ImageSize` states the size of the buffer built from it.
  - `Archive.UnpackIncremental` is `unpack_incremental` (s25.rs:319-324), which refuses every image; `UnpackedShape` and `IncrementalRefused` state the refusal.
- `usize` is taken to be 64 bits wide (`USIZE_MAX` is 2^64 - 1). On a 32-bit target, `(width * height) as usize * 4`, `count as usize * 4` and `*offset + 4` overflow at other sizes than the model says.

=== FILE: bytes.dfy ===
/** Machine integers and little-endian byte encodings.

    The decoder reads every integer of the .s25 format as a little-endian,
    two's-complement word (`i16::from_le_bytes`, `i32::from_le_bytes`) and
    reinterprets signed values with Rust's `as` casts.  This module gives
    those conversions as functions on unbounded integers and proves that
    encoding and decoding are inverse to each other. */
module Bytes {

  const U16_LIMIT: int := 0x1_0000
  const U32_LIMIT: int := 0x1_0000_0000
  const U64_LIMIT: int := 0x1_0000_0000_0000_0000
  const I16_MAX: int := 0x7fff
  const I32_MIN: int := -0x8000_0000
  const I32_MAX: int := 0x7fff_ffff
  const USIZE_MAX: int := 0xffff_ffff_ffff_ffff
  /** Upper bound of a Rust slice length. */
  const ISIZE_MAX: int := 0x7fff_ffff_ffff_ffff

  type u8 = x: int | 0 <= x < 0x100
  type i16 = x: int | -0x8000 <= x <= 0x7fff
  type i32 = x: int | -0x8000_0000 <= x <= 0x7fff_ffff
  type u64 = x: int | 0 <= x < 0x1_0000_0000_0000_0000
  type usize = x: int | 0 <= x <= 0xffff_ffff_ffff_ffff

  predicate InI32(x: int) { I32_MIN <= x <= I32_MAX }

  function Min(a: int, b: int): (r: int)
    ensures r <= a && r <= b && (r == a || r == b)
  {
    if a < b then a else b
  }

  /** 256 to the power n: the number of values n bytes can hold. */
  function Pow256(n: nat): (r: nat)
    ensures r > 0
  {
    if n == 0 then 1 else 256 * Pow256(n - 1)
  }

  /** The unsigned value of a little-endian byte string. */
  function LeValue(bs: seq<u8>): (r: nat)
    ensures r < Pow256(|bs|)
  {
    if bs == [] then 0 else bs[0] + 256 * LeValue(bs[1..])
  }

  /** The n-byte little-endian encoding of u (low bytes first). */
  function LeBytes(u: nat, n: nat): (r: seq<u8>)
    ensures |r| == n
  {
    if n == 0 then [] else [u % 256] + LeBytes(u / 256, n - 1)
  }

  lemma DivModUnique(x: int, q: int, r: int)
    requires 0 <= r < 256 && x == 256 * q + r
    ensures x / 256 == q && x % 256 == r
  {
  }

  /** Decoding the n-byte encoding of a value that fits in n bytes gives it back. */
  lemma {:induction false} LeValueOfLeBytes(u: nat, n: nat)
    requires u < Pow256(n)
    ensures LeValue(LeBytes(u, n)) == u
  {
    if n > 0 {
      var q := u / 256;
      LeValueOfLeBytes(q, n - 1);
      var bs := LeBytes(u, n);
      assert bs[0] == u % 256 && bs[1..] == LeBytes(q, n - 1);
    }
  }

  /** Encoding the value of a byte string with its own width gives it back. */
  lemma {:induction false} LeBytesOfLeValue(bs: seq<u8>)
    ensures LeBytes(LeValue(bs), |bs|) == bs
  {
    if bs != [] {
      var v := LeValue(bs);
      DivModUnique(v, LeValue(bs[1..]), bs[0]);
      LeBytesOfLeValue(bs[1..]);
    }
  }

  /** The two's-complement reading of a 16-bit and of a 32-bit unsigned value. */
  function ToI16(u: nat): (r: i16)
    requires u < U16_LIMIT
    ensures r == u || r == u - U16_LIMIT
  {
    if u <= I16_MAX then u else u - U16_LIMIT
  }

  function ToI32(u: nat): (r: i32)
    requires u < U32_LIMIT
    ensures r == u || r == u - U32_LIMIT
  {
    if u <= I32_MAX then u else u - U32_LIMIT
  }

  /** `v as u16` for an `i16` v. */
  function AsU16(v: i16): (r: nat)
    ensures r < U16_LIMIT && (r - v) % U16_LIMIT == 0
  {
    if v < 0 then v + U16_LIMIT else v
  }

  /** `v as u32` for an `i32` v. */
  function AsU32(v: i32): (r: nat)
    ensures r < U32_LIMIT && (r - v) % U32_LIMIT == 0
  {
    if v < 0 then v + U32_LIMIT else v
  }

  /** `v as u64` for an `i32` v (sign extension). */
  function AsU64(v: i32): (r: u64)
    ensures r == v <==> v >= 0
    ensures v < 0 ==> r >= U64_LIMIT + I32_MIN
  {
    if v < 0 then v + U64_LIMIT else v
  }

  /** The little-endian bytes `v.to_le_bytes()` of an `i16` and of an `i32`. */
  function EncodeI16(v: i16): (r: seq<u8>)
    ensures |r| == 2
  {
    LeBytes(AsU16(v), 2)
  }

  function EncodeI32(v: i32): (r: seq<u8>)
    ensures |r| == 4
  {
    LeBytes(AsU32(v), 4)
  }

  /** `i16::from_le_bytes`. */
  function LeI16(bs: seq<u8>): (r: i16)
    requires |bs| == 2
  {
    ToI16(LeValue(bs))
  }

  /** `i32::from_le_bytes`. */
  function LeI32(bs: seq<u8>): (r: i32)
    requires |bs| == 4
  {
    ToI32(LeValue(bs))
  }

  /** Every `i16` survives an encode/decode round trip. */
  lemma I16RoundTrip(v: i16)
    ensures LeI16(EncodeI16(v)) == v
  {
    LeValueOfLeBytes(AsU16(v), 2);
  }

  /** Every 2-byte string survives a decode/encode round trip. */
  lemma I16Bytes(bs: seq<u8>)
    requires |bs| == 2
    ensures EncodeI16(LeI16(bs)) == bs
  {
    LeBytesOfLeValue(bs);
  }

  /** Every `i32` survives an encode/decode round trip. */
  lemma I32RoundTrip(v: i32)
    ensures LeI32(EncodeI32(v)) == v
  {
    LeValueOfLeBytes(AsU32(v), 4);
  }

  /** Every 4-byte string survives a decode/encode round trip. */
  lemma I32Bytes(bs: seq<u8>)
    requires |bs| == 4
    ensures EncodeI32(LeI32(bs)) == bs
  {
    LeBytesOfLeValue(bs);
  }

  /** Reinterpreting an `i32` read from 4 bytes as `u32` gives the bytes' unsigned value. */
  lemma AsU32OfLeI32(bs: seq<u8>)
    requires |bs| == 4
    ensures AsU32(LeI32(bs)) == LeValue(bs)
    ensures LeI32(bs) < 0 <==> LeValue(bs) >= 0x8000_0000
  {
  }

  /** Reinterpreting an `i16` read from 2 bytes as `u16` gives the bytes' unsigned value. */
  lemma AsU16OfLeI16(bs: seq<u8>)
    requires |bs| == 2
    ensures AsU16(LeI16(bs)) == LeValue(bs)
  {
  }

  /** The value of a 4-byte little-endian string, written out. */
  lemma LeValue4(bs: seq<u8>)
    requires |bs| == 4
    ensures LeValue(bs) == bs[0] as int + 0x100 * (bs[1] as int) + 0x1_0000 * (bs[2] as int) + 0x100_0000 * (bs[3] as int)
  {
    var t1, t2, t3 := bs[1..], bs[2..], bs[3..];
    assert t1[1..] == t2 && t2[1..] == t3 && t3[1..] == [];
    assert LeValue(t3) == bs[3] + 256 * LeValue([]);
    assert LeValue(t2) == bs[2] + 256 * LeValue(t3);
    assert LeValue(t1) == bs[1] + 256 * LeValue(t2);
    assert LeValue(bs) == bs[0] + 256 * LeValue(t1);
  }

  /** Bit 31 of a little-endian `i32` is bit 7 of its last byte. */
  lemma SignBit(bs: seq<u8>)
    requires |bs| == 4
    ensures AsU32(LeI32(bs)) >= 0x8000_0000 <==> bs[3] >= 0x80
  {
    AsU32OfLeI32(bs);
    LeValue4(bs);
  }

  /** The encoding of 0 is four zero bytes, and no other `i32` encodes to them. */
  lemma ZeroWord(v: i32)
    ensures EncodeI32(v) == [0, 0, 0, 0] <==> v == 0
  {
    I32RoundTrip(v);
    if EncodeI32(v) == [0, 0, 0, 0] {
      LeValue4([0, 0, 0, 0]);
    }
  }
}

=== FILE: errors.dfy ===
/** The outcomes of the decoder's operations.

    `Error` is the crate's own error enum; `Panic` names the ways the
    decoder stops by panicking instead of returning an error (a slice index
    out of range, an arithmetic overflow caught by Rust's overflow checks, a
    `Vec` capacity overflow).  A panic ends the whole operation, so it is an
    outcome of its own rather than something a caller can recover from. */
module Errors {

  datatype Error =
    | IoError                // `std::io::Error`: here always `UnexpectedEof`
    | InvalidArchive         // the magic is not `S25\0`
    | UnsupportedFileFormat  // an incremental image
    | NoEntry                // index past the directory, or an absent entry

  datatype Panic =
    | IndexOutOfRange        // a slice `[a..][..n]` or index past the end
    | ArithmeticOverflow     // an `i32` or `usize` operation out of range
    | CapacityOverflow       // `Vec::with_capacity` of a negative length cast to `usize`

  datatype Result<+T> = Ok(value: T) | Err(error: Error) | Panicked(panic: Panic)
  {
    /** The same failure, at another success type. */
    function Cast<U>(): (r: Result<U>)
      requires !Ok?
      ensures !r.Ok? && (Err? <==> r.Err?) && (Err? ==> r.error == error)
      ensures Panicked? ==> r.panic == panic
    {
      match this
      case Err(e) => Err(e)
      case Panicked(p) => Panicked(p)
    }
  }

  /** a and b are the same failure (their success types may differ). */
  predicate SameFailure<T, U>(a: Result<T>, b: Result<U>) {
    && !a.Ok? && !b.Ok?
    && (a.Err? <==> b.Err?)
    && (a.Err? ==> a.error == b.error)
    && (a.Panicked? ==> a.panic == b.panic)
  }
}

=== FILE: io.dfy ===
/** The byte cursor the archive reads from, and `utils::io::read_i16` /
    `read_i32`.

    `S25Archive::from_raw_bytes` wraps the archive bytes in a
    `BufReader<Cursor<&[u8]>>`.  Seen through `seek` and `read_exact`, that is
    a byte string with a position: `seek(SeekFrom::Start(p))` sets the
    position to any `u64` (past the end too), and `read_exact(n)` hands out
    the n bytes at the position and moves past them, or fails with
    `UnexpectedEof` when fewer than n remain.  The functions here say what a
    read at a given position yields; the class `Reader` is the cursor itself. */
module Io {
  import opened Bytes
  import opened Errors

  /** `read_exact` of n bytes at position pos: reading nothing succeeds
      wherever the position is. */
  function ReadAt(data: seq<u8>, pos: nat, n: nat): Result<seq<u8>> {
    if pos + n <= |data| then Ok(data[pos..pos + n])
    else if n == 0 then Ok([])
    else Err(IoError)
  }

  /** `read_i16` at position pos (utils.rs:4-8). */
  function ReadI16At(data: seq<u8>, pos: nat): (r: Result<i16>)
    ensures r.Ok? <==> pos + 2 <= |data|
    ensures !r.Ok? ==> r == Err(IoError)
    ensures r.Ok? ==> EncodeI16(r.value) == data[pos..pos + 2]
  {
    var bs := ReadAt(data, pos, 2);
    if bs.Ok? then
      I16Bytes(bs.value);
      Ok(LeI16(bs.value))
    else bs.Cast()
  }

  /** `read_i32` at position pos (utils.rs:10-14). */
  function ReadI32At(data: seq<u8>, pos: nat): (r: Result<i32>)
    ensures r.Ok? <==> pos + 4 <= |data|
    ensures !r.Ok? ==> r == Err(IoError)
    ensures r.Ok? ==> EncodeI32(r.value) == data[pos..pos + 4]
  {
    var bs := ReadAt(data, pos, 4);
    if bs.Ok? then
      I32Bytes(bs.value);
      Ok(LeI32(bs.value))
    else bs.Cast()
  }

  /** n consecutive `read_i32` calls from position pos, stopping at the first failure. */
  function ReadI32s(data: seq<u8>, pos: nat, n: nat): (r: Result<seq<i32>>)
    ensures r.Ok? ==> |r.value| == n
    ensures !r.Ok? ==> r == Err(IoError)
    decreases n
  {
    if n == 0 then Ok([])
    else
      var w := ReadI32At(data, pos);
      if !w.Ok? then w.Cast()
      else
        var rest := ReadI32s(data, pos + 4, n - 1);
        if rest.Ok? then Ok([w.value] + rest.value) else rest
  }

  /** n words are read exactly when 4n bytes remain (or none are asked
      for, wherever the position is); otherwise the read fails with an I/O error. */
  lemma {:induction false} ReadI32sFails(data: seq<u8>, pos: nat, n: nat)
    ensures var r := ReadI32s(data, pos, n);
      && (r.Ok? <==> n == 0 || pos + 4 * n <= |data|)
      && (!r.Ok? ==> r == Err(IoError))
    decreases n
  {
    if n > 0 {
      ReadI32sFails(data, pos + 4, n - 1);
      assert pos + 4 + 4 * (n - 1) == pos + 4 * n;
    }
  }

  /** Word i of a successful read is the decoding of the i-th 4-byte group. */
  lemma {:induction false} ReadI32sWord(data: seq<u8>, pos: nat, n: nat, i: nat)
    requires ReadI32s(data, pos, n).Ok? && i < n
    ensures pos + 4 * i + 4 <= |data|
    ensures ReadI32s(data, pos, n).value[i] == LeI32(data[pos + 4 * i..pos + 4 * i + 4])
    decreases n
  {
    if i > 0 {
      ReadI32sWord(data, pos + 4, n - 1, i - 1);
      assert pos + 4 + 4 * (i - 1) == pos + 4 * i;
    }
  }

  /** n words are read exactly when 4n bytes remain; word i is the value
      whose little-endian encoding is the i-th 4-byte group. */
  lemma ReadI32sShape(data: seq<u8>, pos: nat, n: nat)
    ensures var r := ReadI32s(data, pos, n);
      && (r.Ok? <==> n == 0 || pos + 4 * n <= |data|)
      && (!r.Ok? ==> r == Err(IoError))
      && (r.Ok? ==> forall i :: 0 <= i < n ==> EncodeI32(r.value[i]) == data[pos + 4 * i..pos + 4 * i + 4])
  {
    ReadI32sFails(data, pos, n);
    var r := ReadI32s(data, pos, n);
    if r.Ok? {
      forall i | 0 <= i < n
        ensures EncodeI32(r.value[i]) == data[pos + 4 * i..pos + 4 * i + 4]
      {
        ReadI32sWord(data, pos, n, i);
        I32Bytes(data[pos + 4 * i..pos + 4 * i + 4]);
      }
    }
  }

  /** The archive's backing `BufReader<Cursor<&[u8]>>`: fixed bytes and a
      position. */
  class Reader {
    const data: seq<u8>
    var pos: nat

    constructor (bytes: seq<u8>)
      ensures data == bytes && pos == 0
    {
      data := bytes;
      pos := 0;
    }

    /** `seek(SeekFrom::Start(p))`: always succeeds, even past the end. */
    method Seek(p: u64)
      modifies this
      ensures pos == p
    {
      pos := p;
    }

    /** `read_exact` of n bytes.  After a failure the position is not
        specified, as `read_exact` does not promise one. */
    method ReadExact(n: nat) returns (r: Result<seq<u8>>)
      modifies this
      ensures r == ReadAt(data, old(pos), n)
      ensures r.Ok? ==> pos == old(pos) + n
    {
      if |data| < pos + n {
        if n == 0 {
          return Ok([]);
        }
        return Err(IoError);
      }
      r := Ok(data[pos..pos + n]);
      pos := pos + n;
    }

    /** `utils::io::read_i16` on this reader (utils.rs:4-8). */
    method ReadI16() returns (r: Result<i16>)
      modifies this
      ensures r == ReadI16At(data, old(pos))
      ensures r.Ok? ==> pos == old(pos) + 2
    {
      var bs := ReadExact(2);
      if !bs.Ok? {
        return bs.Cast();
      }
      r := Ok(LeI16(bs.value));
    }

    /** `utils::io::read_i32` on this reader (utils.rs:10-14). */
    method ReadI32() returns (r: Result<i32>)
      modifies this
      ensures r == ReadI32At(data, old(pos))
      ensures r.Ok? ==> pos == old(pos) + 4
    {
      var bs := ReadExact(4);
      if !bs.Ok? {
        return bs.Cast();
      }
      r := Ok(LeI32(bs.value));
    }
  }
}

=== FILE: line_decoder.dfy ===
/** `decode_line`: the run-length chunk stream of one image row.

    A row is a byte string of chunks.  Each chunk starts (at an even
    position) with a 16-bit little-endian header: the method in bits 13-15,
    a number of bytes to skip in bits 11-12 and a pixel count in bits 0-10,
    where a count of 0 means that a 4-byte signed count follows.  The count
    is clamped to the pixels still owed to the row.  Methods 2 and 4 copy
    B,G,R triples or A,B,G,R quadruples, methods 3 and 5 fill with one colour
    read once, and every other method moves the pixel cursor without
    writing, which leaves those pixels transparent.

    The pure functions below follow the source loop by loop; the method
    `DecodeLineInto` runs the same loop on an array and is proved equal
    to them. */
module LineDecoder {
  import opened Bytes
  import opened Errors

  /** The RGBA buffer being filled and the byte offset of the pixel cursor in it. */
  datatype Canvas = Canvas(off: usize, buf: seq<u8>)

  /** The variables of `decode_line`'s loop: the read position in the row
      (`decode_counter`), the pixels still owed (`count_remaining`), the
      pixel cursor (`*offset`) and the RGBA buffer. */
  datatype State = State(dc: nat, remaining: i32, off: usize, buf: seq<u8>)

  /** The three fields of a chunk header word; `kind` is the source's `method`. */
  datatype Header = Header(kind: nat, skip: nat, count: nat)

  function Max0(n: int): (r: nat)
    ensures r >= n && (n >= 0 ==> r == n)
  {
    if n > 0 then n else 0
  }

  /** `(count >> 13, (count >> 11) & 0x03, count & 0x7ff)` of a 16-bit word. */
  function DecodeHeader(word: nat): (h: Header)
    requires word < U16_LIMIT
    ensures h.kind < 8 && h.skip < 4 && h.count < 0x800
    ensures word == h.kind * 0x2000 + h.skip * 0x800 + h.count
  {
    Header(word / 0x2000, (word / 0x800) % 4, word % 0x800)
  }

  /** One RGBA pixel: the four bytes the decoder writes per pixel, in that order. */
  datatype Rgba = Rgba(r: u8, g: u8, b: u8, a: u8)

  /** The k-th pixel after byte offset off. */
  function PixelAt(buf: seq<u8>, off: nat, k: nat): Rgba
    requires off + 4 * k + 4 <= |buf|
  {
    var i := off + 4 * k;
    Rgba(buf[i], buf[i + 1], buf[i + 2], buf[i + 3])
  }

  /** The opaque pixel of the B,G,R triple at position at (methods 2 and 3). */
  function BgrPixel(line: seq<u8>, at: nat): (px: Rgba)
    requires at + 3 <= |line|
    ensures px.a == 0xff
  {
    Rgba(line[at + 2], line[at + 1], line[at], 0xff)
  }

  /** The pixel of the A,B,G,R quadruple at position at (methods 4 and 5). */
  function AbgrPixel(line: seq<u8>, at: nat): Rgba
    requires at + 4 <= |line|
  {
    Rgba(line[at + 3], line[at + 2], line[at + 1], line[at])
  }

  /** buf with the pixel px written at byte offset off. */
  function Put(buf: seq<u8>, off: nat, px: Rgba): (r: seq<u8>)
    requires off + 4 <= |buf|
    ensures |r| == |buf| && PixelAt(r, off, 0) == px
    ensures forall i :: 0 <= i < |buf| && !(off <= i < off + 4) ==> r[i] == buf[i]
  {
    buf[off := px.r][off + 1 := px.g][off + 2 := px.b][off + 3 := px.a]
  }

  /** One pixel write of a pixel loop: px at the cursor, the cursor moved by
      4 bytes and the row position by adv bytes. */
  function Write(s: State, px: Rgba, adv: nat): (t: State)
    requires s.off + 4 <= |s.buf| && s.off + 4 <= USIZE_MAX
    ensures t.remaining == s.remaining && |t.buf| == |s.buf|
    ensures t.dc == s.dc + adv && t.off == s.off + 4
  {
    s.(dc := s.dc + adv, off := s.off + 4, buf := Put(s.buf, s.off, px))
  }

  /** The number of whole pixels a buffer of size bytes holds from byte offset off on. */
  function Room(size: nat, off: nat): (r: nat)
    ensures off + 4 * r <= size || r == 0
    ensures off + 4 <= size <==> r > 0
    decreases size - off
  {
    if off + 4 <= size then 1 + Room(size, off + 4) else 0
  }

  /** The number of whole triples line holds from position dc on. */
  function Triples(line: seq<u8>, dc: nat): (r: nat)
    ensures dc + 3 * r <= |line| || r == 0
    ensures dc + 3 <= |line| <==> r > 0
    decreases |line| - dc
  {
    if dc + 3 <= |line| then 1 + Triples(line, dc + 3) else 0
  }

  /** t is s with w pixels written from s's cursor on, the cursor moved past
      them, and no other byte of the buffer changed. */
  ghost predicate WroteRun(s: State, t: State, w: nat) {
    && t.remaining == s.remaining
    && |t.buf| == |s.buf|
    && (w > 0 ==> s.off + 4 * w <= |s.buf|)
    && t.off == s.off + 4 * w
    && forall i :: 0 <= i < |s.buf| && !(s.off <= i < s.off + 4 * w) ==> t.buf[i] == s.buf[i]
  }

  /** Method 2 (s25.rs:234-249): copy up to n B,G,R triples as opaque pixels,
      stopping when the buffer has no room for a pixel or the row no whole triple. */
  function CopyBgr(line: seq<u8>, n: int, s: State): (r: Result<State>)
    ensures !r.Err? && (r.Panicked? ==> r.panic == ArithmeticOverflow)
    ensures r.Ok? ==> r.value.remaining == s.remaining && |r.value.buf| == |s.buf| && r.value.dc >= s.dc
    decreases n
  {
    if n <= 0 then Ok(s)
    else if s.off + 4 > USIZE_MAX then Panicked(ArithmeticOverflow)
    else if |s.buf| < s.off + 4 || |line| <= s.dc + 2 then Ok(s)
    else
      CopyBgr(line, n - 1,
              Write(s, BgrPixel(line, s.dc), 3))
  }

  /** The loops of methods 3 and 5: write the one pixel px up to n times. */
  function Fill(n: int, px: Rgba, s: State): (r: Result<State>)
    ensures !r.Err? && (r.Panicked? ==> r.panic == ArithmeticOverflow)
    ensures r.Ok? ==> r.value.remaining == s.remaining && |r.value.buf| == |s.buf| && r.value.dc == s.dc
    decreases n
  {
    if n <= 0 then Ok(s)
    else if s.off + 4 > USIZE_MAX then Panicked(ArithmeticOverflow)
    else if |s.buf| < s.off + 4 then Ok(s)
    else Fill(n - 1, px, Write(s, px, 0))
  }

  /** Method 4 (s25.rs:271-286): copy up to n A,B,G,R quadruples; unlike method 2
      nothing checks that the row holds the quadruple, so reading past it panics. */
  function CopyAbgr(line: seq<u8>, n: int, s: State): (r: Result<State>)
    ensures !r.Err? && (r.Panicked? ==> r.panic != CapacityOverflow)
    ensures r.Ok? ==> r.value.remaining == s.remaining && |r.value.buf| == |s.buf| && r.value.dc >= s.dc
    decreases n
  {
    if n <= 0 then Ok(s)
    else if s.off + 4 > USIZE_MAX then Panicked(ArithmeticOverflow)
    else if |s.buf| < s.off + 4 then Ok(s)
    else if |line| <= s.dc + 3 then Panicked(IndexOutOfRange)
    else
      CopyAbgr(line, n - 1,
               Write(s, AbgrPixel(line, s.dc), 4))
  }

  /** Every other method (s25.rs:307-313): move the cursor by count pixels.
      Negating `i32::MIN` overflows. */
  function Skip(count: int, s: State): (r: Result<State>)
    ensures r.Ok? <==> count > I32_MIN && 0 <= s.off + 4 * count <= USIZE_MAX
    ensures !r.Err? && (r.Panicked? ==> r.panic == ArithmeticOverflow)
    ensures r.Ok? ==> r.value == s.(off := s.off + 4 * count)
  {
    if count < 0 then
      if -count > I32_MAX then Panicked(ArithmeticOverflow)
      else if s.off < -count * 4 then Panicked(ArithmeticOverflow)
      else Ok(s.(off := s.off - -count * 4))
    else if s.off + count * 4 > USIZE_MAX then Panicked(ArithmeticOverflow)
    else Ok(s.(off := s.off + count * 4))
  }

  /** The `match method` of one chunk (kind is `method`), after its header and count are read. */
  function Apply(line: seq<u8>, kind: nat, count: int, s: State): (r: Result<State>)
    ensures !r.Err? && (r.Panicked? ==> r.panic != CapacityOverflow)
    ensures r.Ok? ==> r.value.remaining == s.remaining && |r.value.buf| == |s.buf| && r.value.dc >= s.dc
  {
    if kind == 2 then CopyBgr(line, count, s)
    else if kind == 3 then
      if |line| < s.dc + 3 then Panicked(IndexOutOfRange)
      else Fill(count, BgrPixel(line, s.dc), s.(dc := s.dc + 3))
    else if kind == 4 then CopyAbgr(line, count, s)
    else if kind == 5 then
      if |line| < s.dc + 4 then Panicked(IndexOutOfRange)
      else Fill(count, AbgrPixel(line, s.dc), s.(dc := s.dc + 4))
    else Skip(count, s)
  }

  /** A chunk's header as `decode_line` uses it: the method, the count
      clamped to the pixels still owed, and the row position after the
      header (and after the extended count, when there is one). */
  datatype Chunk = Chunk(kind: nat, count: i32, dc: nat)

  /** The head of one iteration of `decode_line`'s loop (s25.rs:205-231): the
      row position rounded up to even, the header word, the skipped bytes, the
      extended count, the clamp and `count_remaining -= count`. */
  function ReadChunk(line: seq<u8>, dc: nat, remaining: i32): (r: Result<Chunk>)
    requires remaining > 0 && dc < |line|
    ensures !r.Err? && (r.Panicked? ==> r.panic != CapacityOverflow)
    ensures r.Ok? ==> r.value.dc >= dc + dc % 2 + 2 && r.value.count <= remaining && InI32(remaining - r.value.count)
  {
    var dc0 := dc + dc % 2;
    if |line| < dc0 + 2 then Panicked(IndexOutOfRange)
    else
      var h := DecodeHeader(LeValue(line[dc0..dc0 + 2]));
      var dc1 := dc0 + 2 + h.skip;
      if h.count == 0 && |line| < dc1 + 4 then Panicked(IndexOutOfRange)
      else
        var count := Min(if h.count == 0 then LeI32(line[dc1..dc1 + 4]) else h.count, remaining);
        if remaining - count > I32_MAX then Panicked(ArithmeticOverflow)
        else Ok(Chunk(h.kind, count, if h.count == 0 then dc1 + 4 else dc1))
  }

  /** One iteration of `decode_line`'s loop: one chunk. */
  function Step(line: seq<u8>, s: State): (r: Result<State>)
    requires s.remaining > 0 && s.dc < |line|
    ensures !r.Err? && (r.Panicked? ==> r.panic != CapacityOverflow)
    ensures r.Ok? ==> r.value.dc >= s.dc + 2 && |r.value.buf| == |s.buf| && r.value.remaining >= 0
  {
    var c := ReadChunk(line, s.dc, s.remaining);
    if c.Ok? then
      Apply(line, c.value.kind, c.value.count, s.(dc := c.value.dc, remaining := s.remaining - c.value.count))
    else c.Cast()
  }

  /** `decode_line`'s loop, from state s to its end. */
  function Run(line: seq<u8>, s: State): (r: Result<State>)
    ensures !r.Err? && (r.Panicked? ==> r.panic != CapacityOverflow)
    ensures r.Ok? ==> |r.value.buf| == |s.buf| && (r.value.remaining <= 0 || |line| <= r.value.dc)
    ensures r.Ok? && s.remaining > 0 ==> r.value.remaining >= 0
    decreases if s.dc < |line| then |line| - s.dc else 0
  {
    if s.remaining <= 0 || |line| <= s.dc then Ok(s)
    else
      var t := Step(line, s);
      if t.Ok? then Run(line, t.value) else t
  }

  /** `decode_line(decode_buf, buf, &mut offset, width)`: the canvas after the row. */
  function DecodeLine(line: seq<u8>, width: i32, c: Canvas): (r: Result<Canvas>)
    ensures !r.Err? && (r.Panicked? ==> r.panic != CapacityOverflow)
    ensures r.Ok? ==> |r.value.buf| == |c.buf|
  {
    var t := Run(line, State(0, width, c.off, c.buf));
    if t.Ok? then Ok(Canvas(t.value.off, t.value.buf)) else t.Cast()
  }

  /** A header word has one decomposition into method, skip and count. */
  lemma HeaderOf(kind: nat, skip: nat, count: nat)
    requires kind < 8 && skip < 4 && count < 0x800
    ensures kind * 0x2000 + skip * 0x800 + count < U16_LIMIT
    ensures DecodeHeader(kind * 0x2000 + skip * 0x800 + count) == Header(kind, skip, count)
  {
  }

  /** A chunk whose header word, at the row position rounded up to even,
      encodes method kind, skip and a count of 1 to 0x7ff: its count is that
      count clamped to the pixels owed, and the row resumes past the header
      and the skipped bytes. */
  lemma ChunkShort(line: seq<u8>, dc: nat, remaining: i32, kind: nat, skip: nat, count: nat)
    requires remaining > 0 && dc < |line|
    requires kind < 8 && skip < 4 && 0 < count < 0x800
    requires dc + dc % 2 + 2 <= |line|
    requires line[dc + dc % 2..dc + dc % 2 + 2] == LeBytes(kind * 0x2000 + skip * 0x800 + count, 2)
    ensures ReadChunk(line, dc, remaining) == Ok(Chunk(kind, Min(count, remaining), dc + dc % 2 + 2 + skip))
  {
    HeaderOf(kind, skip, count);
    LeValueOfLeBytes(kind * 0x2000 + skip * 0x800 + count, 2);
  }

  /** A chunk whose header word encodes method kind, skip and a count of 0,
      followed after the skipped bytes by the 4-byte count n: its count is n
      clamped to the pixels owed, the row resumes past n, and
      `count_remaining -= count` overflows exactly when that is out of range. */
  lemma ChunkLong(line: seq<u8>, dc: nat, remaining: i32, kind: nat, skip: nat, n: i32)
    requires remaining > 0 && dc < |line|
    requires kind < 8 && skip < 4
    requires dc + dc % 2 + 2 + skip + 4 <= |line|
    requires line[dc + dc % 2..dc + dc % 2 + 2] == LeBytes(kind * 0x2000 + skip * 0x800, 2)
    requires line[dc + dc % 2 + 2 + skip..dc + dc % 2 + 6 + skip] == EncodeI32(n)
    ensures ReadChunk(line, dc, remaining) ==
      if remaining - Min(n, remaining) > I32_MAX then Panicked(ArithmeticOverflow)
      else Ok(Chunk(kind, Min(n, remaining), dc + dc % 2 + 6 + skip))
  {
    var p := dc + dc % 2;
    var q := p + 2 + skip;
    HeaderOf(kind, skip, 0);
    LeValueOfLeBytes(kind * 0x2000 + skip * 0x800, 2);
    I32RoundTrip(n);
    ExtendedChunk(line, dc, remaining, p, Header(kind, skip, 0), n);
  }

  /** ReadChunk on a header h with a count of 0 at p, followed after the
      skipped bytes by the 4-byte count n. */
  lemma ExtendedChunk(line: seq<u8>, dc: nat, remaining: i32, p: nat, h: Header, n: i32)
    requires remaining > 0 && dc < |line| && p == dc + dc % 2
    requires p + 2 + h.skip + 4 <= |line| && h.count == 0
    requires DecodeHeader(LeValue(line[p..p + 2])) == h
    requires LeI32(line[p + 2 + h.skip..p + 6 + h.skip]) == n
    ensures ReadChunk(line, dc, remaining) ==
      if remaining - Min(n, remaining) > I32_MAX then Panicked(ArithmeticOverflow)
      else Ok(Chunk(h.kind, Min(n, remaining), p + 6 + h.skip))
  {
  }

  /** Reading a chunk head panics exactly when the header word or the
      extended count runs past the end of the row, or when subtracting a
      negative extended count from the pixels owed overflows. */
  lemma ChunkPanics(line: seq<u8>, dc: nat, remaining: i32)
    requires remaining > 0 && dc < |line|
    ensures var p := dc + dc % 2;
      ReadChunk(line, dc, remaining).Panicked? <==>
        || |line| < p + 2
        || (var h := DecodeHeader(LeValue(line[p..p + 2]));
            var q := p + 2 + h.skip;
            h.count == 0 && (|line| < q + 4 || remaining - LeI32(line[q..q + 4]) > I32_MAX))
  {
  }

  lemma RoomStep(size: nat, off: nat)
    requires off + 4 <= size
    ensures Room(size, off + 4) == Room(size, off) - 1
  {
  }

  lemma TriplesStep(line: seq<u8>, dc: nat)
    requires dc + 3 <= |line|
    ensures Triples(line, dc + 3) == Triples(line, dc) - 1
  {
  }

  /** Writing px at s's cursor and then a run of w - 1 pixels after it is a
      run of w pixels from s's cursor whose first pixel is px. */
  lemma PrependPixel(s: State, px: Rgba, adv: nat, t: State, w: nat)
    requires s.off + 4 <= |s.buf| && s.off + 4 <= USIZE_MAX && w > 0
    requires WroteRun(Write(s, px, adv), t, w - 1)
    ensures WroteRun(s, t, w)
    ensures PixelAt(t.buf, s.off, 0) == px
    ensures forall k :: 1 <= k < w ==> PixelAt(t.buf, s.off, k) == PixelAt(t.buf, s.off + 4, k - 1)
  {
    var s' := Write(s, px, adv);
    assert forall i :: s.off <= i < s.off + 4 ==> t.buf[i] == s'.buf[i];
  }

  /** How many pixels method 2 writes: as many as asked, as fit in the
      buffer, and as the row holds whole triples for. */
  function BgrCount(line: seq<u8>, n: int, s: State): nat {
    Min(Max0(n), Min(Room(|s.buf|, s.off), Triples(line, s.dc)))
  }

  lemma BgrCountStep(line: seq<u8>, n: int, s: State)
    requires n > 0 && s.off + 4 <= |s.buf| && s.off + 4 <= USIZE_MAX && s.dc + 3 <= |line|
    ensures BgrCount(line, n - 1, Write(s, BgrPixel(line, s.dc), 3)) == BgrCount(line, n, s) - 1
  {
    RoomStep(|s.buf|, s.off);
    TriplesStep(line, s.dc);
  }

  /** Method 2 panics only when `*offset + 4` overflows: its reads of the row are guarded. */
  lemma {:induction false} CopyBgrPanics(line: seq<u8>, n: int, s: State)
    requires |s.buf| <= ISIZE_MAX
    ensures CopyBgr(line, n, s).Panicked? <==> n > 0 && s.off + 4 > USIZE_MAX
  {
    if n > 0 && s.off + 4 <= USIZE_MAX && s.off + 4 <= |s.buf| && s.dc + 2 < |line| {
      CopyBgrPanics(line, n - 1, Write(s, BgrPixel(line, s.dc), 3));
    }
  }

  /** Method 2 writes w = BgrCount(line, n, s) pixels, advances the cursor by
      exactly 4 bytes and the row position by exactly 3 per pixel, and leaves
      every byte outside those pixels alone. */
  lemma {:induction false} CopyBgrRun(line: seq<u8>, n: int, s: State)
    requires CopyBgr(line, n, s).Ok?
    ensures var t := CopyBgr(line, n, s).value;
      WroteRun(s, t, BgrCount(line, n, s)) && t.dc == s.dc + 3 * BgrCount(line, n, s)
  {
    if n > 0 && s.off + 4 <= |s.buf| && s.dc + 2 < |line| {
      var px := BgrPixel(line, s.dc);
      CopyBgrRun(line, n - 1, Write(s, px, 3));
      BgrCountStep(line, n, s);
      PrependPixel(s, px, 3, CopyBgr(line, n - 1, Write(s, px, 3)).value, BgrCount(line, n, s));
    }
  }

  /** The first pixel method 2 writes is the opaque pixel of the first B,G,R triple
      at the row position: the later writes do not touch it. */
  lemma CopyBgrFirst(line: seq<u8>, n: int, s: State)
    requires CopyBgr(line, n, s).Ok? && BgrCount(line, n, s) > 0
    ensures s.off + 4 <= |CopyBgr(line, n, s).value.buf| && s.dc + 3 <= |line|
    ensures PixelAt(CopyBgr(line, n, s).value.buf, s.off, 0) == BgrPixel(line, s.dc)
  {
    assert n > 0 && s.off + 4 <= |s.buf| && s.off + 4 <= USIZE_MAX && s.dc + 3 <= |line|;
    var px := BgrPixel(line, s.dc);
    var s' := Write(s, px, 3);
    assert CopyBgr(line, n, s) == CopyBgr(line, n - 1, s');
    BgrCountStep(line, n, s);
    CopyBgrRun(line, n - 1, s');
    PrependPixel(s, px, 3, CopyBgr(line, n - 1, s').value, BgrCount(line, n, s));
  }

  /** The k-th pixel method 2 writes is the opaque pixel of the k-th B,G,R
      triple from the row position on. */
  lemma {:induction false} CopyBgrPixel(line: seq<u8>, n: int, s: State, k: nat)
    requires CopyBgr(line, n, s).Ok? && k < BgrCount(line, n, s)
    ensures s.off + 4 * k + 4 <= |CopyBgr(line, n, s).value.buf| && s.dc + 3 * k + 3 <= |line|
    ensures PixelAt(CopyBgr(line, n, s).value.buf, s.off, k) == BgrPixel(line, s.dc + 3 * k)
    decreases k
  {
    if k == 0 {
      CopyBgrFirst(line, n, s);
    } else {
      assert n > 0 && s.off + 4 <= |s.buf| && s.off + 4 <= USIZE_MAX && s.dc + 3 <= |line|;
      var px := BgrPixel(line, s.dc);
      var s' := Write(s, px, 3);
      assert CopyBgr(line, n, s) == CopyBgr(line, n - 1, s');
      BgrCountStep(line, n, s);
      var t := CopyBgr(line, n - 1, s').value;
      CopyBgrPixel(line, n - 1, s', k - 1);
      assert PixelAt(t.buf, s.off, k) == PixelAt(t.buf, s'.off, k - 1);
    }
  }

  /** Method 2 writes, from the cursor on, the opaque pixels of consecutive
      B,G,R triples from the row position on. */
  lemma CopyBgrPixels(line: seq<u8>, n: int, s: State)
    requires CopyBgr(line, n, s).Ok?
    ensures var t := CopyBgr(line, n, s).value;
      var w := BgrCount(line, n, s);
      && (w > 0 ==> s.off + 4 * w <= |t.buf| && s.dc + 3 * w <= |line|)
      && forall k :: 0 <= k < w ==> PixelAt(t.buf, s.off, k) == BgrPixel(line, s.dc + 3 * k)
  {
    var w := BgrCount(line, n, s);
    if w > 0 {
      CopyBgrPixel(line, n, s, w - 1);
    }
    forall k | 0 <= k < w {
      CopyBgrPixel(line, n, s, k);
    }
  }

  /** How many pixels a fill and method 4 write: as many as asked and as fit in the buffer. */
  function FillCount(n: int, s: State): nat {
    Min(Max0(n), Room(|s.buf|, s.off))
  }

  lemma FillCountStep(n: int, s: State, px: Rgba, adv: nat)
    requires n > 0 && s.off + 4 <= |s.buf| && s.off + 4 <= USIZE_MAX
    ensures FillCount(n - 1, Write(s, px, adv)) == FillCount(n, s) - 1
  {
    RoomStep(|s.buf|, s.off);
  }

  /** A fill panics only when `*offset + 4` overflows. */
  lemma {:induction false} FillPanics(n: int, px: Rgba, s: State)
    requires |s.buf| <= ISIZE_MAX
    ensures Fill(n, px, s).Panicked? <==> n > 0 && s.off + 4 > USIZE_MAX
  {
    if n > 0 && s.off + 4 <= USIZE_MAX && s.off + 4 <= |s.buf| {
      FillPanics(n - 1, px, Write(s, px, 0));
    }
  }

  /** A fill writes w = FillCount(n, s) pixels from the cursor on, advances
      the cursor by exactly 4 bytes per pixel, does not move in the row, and
      leaves every other byte alone. */
  lemma {:induction false} FillRun(n: int, px: Rgba, s: State)
    requires Fill(n, px, s).Ok?
    ensures var t := Fill(n, px, s).value;
      WroteRun(s, t, FillCount(n, s)) && t.dc == s.dc
  {
    if n > 0 && s.off + 4 <= |s.buf| {
      FillRun(n - 1, px, Write(s, px, 0));
      FillCountStep(n, s, px, 0);
      PrependPixel(s, px, 0, Fill(n - 1, px, Write(s, px, 0)).value, FillCount(n, s));
    }
  }

  /** The first pixel a fill writes is px: the later writes do not touch it. */
  lemma FillFirst(n: int, px: Rgba, s: State)
    requires Fill(n, px, s).Ok? && FillCount(n, s) > 0
    ensures s.off + 4 <= |Fill(n, px, s).value.buf|
    ensures PixelAt(Fill(n, px, s).value.buf, s.off, 0) == px
  {
    assert n > 0 && s.off + 4 <= |s.buf| && s.off + 4 <= USIZE_MAX;
    var s' := Write(s, px, 0);
    assert Fill(n, px, s) == Fill(n - 1, px, s');
    FillCountStep(n, s, px, 0);
    FillRun(n - 1, px, s');
    PrependPixel(s, px, 0, Fill(n - 1, px, s').value, FillCount(n, s));
  }

  /** Each of the pixels a fill writes is px. */
  lemma {:induction false} FillPixel(n: int, px: Rgba, s: State, k: nat)
    requires Fill(n, px, s).Ok? && k < FillCount(n, s)
    ensures s.off + 4 * k + 4 <= |Fill(n, px, s).value.buf|
    ensures PixelAt(Fill(n, px, s).value.buf, s.off, k) == px
    decreases k
  {
    if k == 0 {
      FillFirst(n, px, s);
    } else {
      assert n > 0 && s.off + 4 <= |s.buf| && s.off + 4 <= USIZE_MAX;
      var s' := Write(s, px, 0);
      assert Fill(n, px, s) == Fill(n - 1, px, s');
      FillCountStep(n, s, px, 0);
      var t := Fill(n - 1, px, s').value;
      FillPixel(n - 1, px, s', k - 1);
      assert PixelAt(t.buf, s.off, k) == PixelAt(t.buf, s'.off, k - 1);
    }
  }

  /** A fill writes w = FillCount(n, s) copies of px from the cursor on and
      nothing else (FillRun). */
  lemma FillWrites(n: int, px: Rgba, s: State)
    requires Fill(n, px, s).Ok?
    ensures var t := Fill(n, px, s).value;
      var w := FillCount(n, s);
      && WroteRun(s, t, w)
      && t.dc == s.dc
      && forall k :: 0 <= k < w ==> PixelAt(t.buf, s.off, k) == px
  {
    FillRun(n, px, s);
    forall k | 0 <= k < FillCount(n, s) {
      FillPixel(n, px, s, k);
    }
  }

  /** With no check on the row, method 4 panics exactly when a pixel it must
      write has no whole A,B,G,R quadruple left in the row, or when
      `*offset + 4` overflows. */
  lemma {:induction false} CopyAbgrPanics(line: seq<u8>, n: int, s: State)
    requires |s.buf| <= ISIZE_MAX
    ensures var w := FillCount(n, s);
      CopyAbgr(line, n, s).Panicked? <==> (n > 0 && s.off + 4 > USIZE_MAX) || (w > 0 && |line| < s.dc + 4 * w)
  {
    if n > 0 && s.off + 4 <= USIZE_MAX && s.off + 4 <= |s.buf| && s.dc + 3 < |line| {
      var px := AbgrPixel(line, s.dc);
      CopyAbgrPanics(line, n - 1, Write(s, px, 4));
      FillCountStep(n, s, px, 4);
    }
  }

  /** Method 4 writes w = FillCount(n, s) pixels, advancing the cursor and the
      row position by exactly 4 bytes per pixel, and leaves every other byte alone. */
  lemma {:induction false} CopyAbgrRun(line: seq<u8>, n: int, s: State)
    requires CopyAbgr(line, n, s).Ok?
    ensures var t := CopyAbgr(line, n, s).value;
      WroteRun(s, t, FillCount(n, s)) && t.dc == s.dc + 4 * FillCount(n, s)
  {
    if n > 0 && s.off + 4 <= |s.buf| {
      var px := AbgrPixel(line, s.dc);
      CopyAbgrRun(line, n - 1, Write(s, px, 4));
      FillCountStep(n, s, px, 4);
      PrependPixel(s, px, 4, CopyAbgr(line, n - 1, Write(s, px, 4)).value, FillCount(n, s));
    }
  }

  /** The first pixel method 4 writes is the pixel of the first A,B,G,R quadruple
      at the row position: the later writes do not touch it. */
  lemma CopyAbgrFirst(line: seq<u8>, n: int, s: State)
    requires CopyAbgr(line, n, s).Ok? && FillCount(n, s) > 0
    ensures s.off + 4 <= |CopyAbgr(line, n, s).value.buf| && s.dc + 4 <= |line|
    ensures PixelAt(CopyAbgr(line, n, s).value.buf, s.off, 0) == AbgrPixel(line, s.dc)
  {
    assert n > 0 && s.off + 4 <= |s.buf| && s.off + 4 <= USIZE_MAX && s.dc + 4 <= |line|;
    var px := AbgrPixel(line, s.dc);
    var s' := Write(s, px, 4);
    assert CopyAbgr(line, n, s) == CopyAbgr(line, n - 1, s');
    FillCountStep(n, s, px, 4);
    CopyAbgrRun(line, n - 1, s');
    PrependPixel(s, px, 4, CopyAbgr(line, n - 1, s').value, FillCount(n, s));
  }

  /** The k-th pixel method 4 writes is the pixel of the k-th A,B,G,R
      quadruple from the row position on. */
  lemma {:induction false} CopyAbgrPixel(line: seq<u8>, n: int, s: State, k: nat)
    requires CopyAbgr(line, n, s).Ok? && k < FillCount(n, s)
    ensures s.off + 4 * k + 4 <= |CopyAbgr(line, n, s).value.buf| && s.dc + 4 * k + 4 <= |line|
    ensures PixelAt(CopyAbgr(line, n, s).value.buf, s.off, k) == AbgrPixel(line, s.dc + 4 * k)
    decreases k
  {
    if k == 0 {
      CopyAbgrFirst(line, n, s);
    } else {
      assert n > 0 && s.off + 4 <= |s.buf| && s.off + 4 <= USIZE_MAX && s.dc + 4 <= |line|;
      var px := AbgrPixel(line, s.dc);
      var s' := Write(s, px, 4);
      assert CopyAbgr(line, n, s) == CopyAbgr(line, n - 1, s');
      FillCountStep(n, s, px, 4);
      var t := CopyAbgr(line, n - 1, s').value;
      CopyAbgrPixel(line, n - 1, s', k - 1);
      assert PixelAt(t.buf, s.off, k) == PixelAt(t.buf, s'.off, k - 1);
    }
  }

  /** Method 4 writes, from the cursor on, the pixels of consecutive A,B,G,R
      quadruples from the row position on. */
  lemma CopyAbgrPixels(line: seq<u8>, n: int, s: State)
    requires CopyAbgr(line, n, s).Ok?
    ensures var t := CopyAbgr(line, n, s).value;
      var w := FillCount(n, s);
      && (w > 0 ==> s.off + 4 * w <= |t.buf| && s.dc + 4 * w <= |line|)
      && forall k :: 0 <= k < w ==> PixelAt(t.buf, s.off, k) == AbgrPixel(line, s.dc + 4 * k)
  {
    var w := FillCount(n, s);
    if w > 0 {
      CopyAbgrPixel(line, n, s, w - 1);
    }
    forall k | 0 <= k < w {
      CopyAbgrPixel(line, n, s, k);
    }
  }

  /** Method 3: the colour is read once from the row, which panics when the
      row holds no whole triple there (even for a count of 0); then w =
      FillCount(count, s) copies of that opaque colour are written. */
  lemma FillBgrChunk(line: seq<u8>, count: int, s: State)
    requires |s.buf| <= ISIZE_MAX
    ensures var r := Apply(line, 3, count, s);
      && (r.Panicked? <==> |line| < s.dc + 3 || (count > 0 && s.off + 4 > USIZE_MAX))
      && (r.Ok? ==>
            && r.value.dc == s.dc + 3
            && WroteRun(s, r.value, FillCount(count, s))
            && forall k :: 0 <= k < FillCount(count, s) ==> PixelAt(r.value.buf, s.off, k) == BgrPixel(line, s.dc))
  {
    if s.dc + 3 <= |line| {
      var s' := s.(dc := s.dc + 3);
      FillPanics(count, BgrPixel(line, s.dc), s');
      if Fill(count, BgrPixel(line, s.dc), s').Ok? {
        FillWrites(count, BgrPixel(line, s.dc), s');
      }
    }
  }

  /** Method 5: the same with one A,B,G,R quadruple read once. */
  lemma FillAbgrChunk(line: seq<u8>, count: int, s: State)
    requires |s.buf| <= ISIZE_MAX
    ensures var r := Apply(line, 5, count, s);
      && (r.Panicked? <==> |line| < s.dc + 4 || (count > 0 && s.off + 4 > USIZE_MAX))
      && (r.Ok? ==>
            && r.value.dc == s.dc + 4
            && WroteRun(s, r.value, FillCount(count, s))
            && forall k :: 0 <= k < FillCount(count, s) ==> PixelAt(r.value.buf, s.off, k) == AbgrPixel(line, s.dc))
  {
    if s.dc + 4 <= |line| {
      var s' := s.(dc := s.dc + 4);
      FillPanics(count, AbgrPixel(line, s.dc), s');
      if Fill(count, AbgrPixel(line, s.dc), s').Ok? {
        FillWrites(count, AbgrPixel(line, s.dc), s');
      }
    }
  }

  /** Where a pixel loop stands: the row position and the pixel cursor. */
  datatype Pos = Pos(dc: nat, off: usize)

  /** r, the outcome of a method over buf, is the outcome e of the
      corresponding function, with the pixels owed fixed at remaining. */
  ghost predicate Matches(r: Result<Pos>, e: Result<State>, remaining: i32, buf: seq<u8>) {
    match r
    case Ok(p) => e == Ok(State(p.dc, remaining, p.off, buf))
    case _ => SameFailure(r, e)
  }

  /** The four byte stores of one pixel write. */
  method PutPixel(buf: array<u8>, off: nat, px: Rgba)
    requires off + 4 <= buf.Length
    modifies buf
    ensures buf[..] == Put(old(buf[..]), off, px)
  {
    buf[off] := px.r;
    buf[off + 1] := px.g;
    buf[off + 2] := px.b;
    buf[off + 3] := px.a;
  }

  /** The loop of method 2 (s25.rs:234-249) on the buffer itself. */
  method CopyBgrInto(line: seq<u8>, buf: array<u8>, n: i32, ghost remaining: i32, dc0: nat, off0: usize)
    returns (r: Result<Pos>)
    modifies buf
    ensures Matches(r, CopyBgr(line, n, State(dc0, remaining, off0, old(buf[..]))), remaining, buf[..])
  {
    var i: int := 0;
    var dc: nat, off: usize := dc0, off0;
    while i < n
      invariant CopyBgr(line, n - i, State(dc, remaining, off, buf[..])) == CopyBgr(line, n, State(dc0, remaining, off0, old(buf[..])))
      decreases n - i
    {
      if off + 4 > USIZE_MAX {
        return Panicked(ArithmeticOverflow);
      }
      if buf.Length < off + 4 || |line| <= dc + 2 {
        break;
      }
      ghost var next := Write(State(dc, remaining, off, buf[..]), BgrPixel(line, dc), 3);
      PutPixel(buf, off, BgrPixel(line, dc));
      assert next == State(dc + 3, remaining, off + 4, buf[..]);
      dc, off, i := dc + 3, off + 4, i + 1;
    }
    return Ok(Pos(dc, off));
  }

  /** The loops of methods 3 and 5 (s25.rs:255-266, 292-302) on the buffer itself. */
  method FillInto(buf: array<u8>, n: i32, px: Rgba, ghost remaining: i32, dc: nat, off0: usize)
    returns (r: Result<Pos>)
    modifies buf
    ensures Matches(r, Fill(n, px, State(dc, remaining, off0, old(buf[..]))), remaining, buf[..])
  {
    var i: int := 0;
    var off: usize := off0;
    while i < n
      invariant Fill(n - i, px, State(dc, remaining, off, buf[..])) == Fill(n, px, State(dc, remaining, off0, old(buf[..])))
      decreases n - i
    {
      if off + 4 > USIZE_MAX {
        return Panicked(ArithmeticOverflow);
      }
      if buf.Length < off + 4 {
        break;
      }
      PutPixel(buf, off, px);
      off, i := off + 4, i + 1;
    }
    return Ok(Pos(dc, off));
  }

  /** The loop of method 4 (s25.rs:273-285) on the buffer itself. */
  method CopyAbgrInto(line: seq<u8>, buf: array<u8>, n: i32, ghost remaining: i32, dc0: nat, off0: usize)
    returns (r: Result<Pos>)
    modifies buf
    ensures Matches(r, CopyAbgr(line, n, State(dc0, remaining, off0, old(buf[..]))), remaining, buf[..])
  {
    var i: int := 0;
    var dc: nat, off: usize := dc0, off0;
    while i < n
      invariant CopyAbgr(line, n - i, State(dc, remaining, off, buf[..])) == CopyAbgr(line, n, State(dc0, remaining, off0, old(buf[..])))
      decreases n - i
    {
      if off + 4 > USIZE_MAX {
        return Panicked(ArithmeticOverflow);
      }
      if buf.Length < off + 4 {
        break;
      }
      if |line| <= dc + 3 {
        return Panicked(IndexOutOfRange);
      }
      ghost var next := Write(State(dc, remaining, off, buf[..]), AbgrPixel(line, dc), 4);
      PutPixel(buf, off, AbgrPixel(line, dc));
      assert next == State(dc + 4, remaining, off + 4, buf[..]);
      dc, off, i := dc + 4, off + 4, i + 1;
    }
    return Ok(Pos(dc, off));
  }

  /** The `match method` of one chunk (s25.rs:233-314) on the buffer itself. */
  method ApplyInto(line: seq<u8>, buf: array<u8>, kind: nat, count: i32, ghost remaining: i32, dc: nat, off: usize)
    returns (p: Result<Pos>)
    modifies buf
    ensures Matches(p, Apply(line, kind, count, State(dc, remaining, off, old(buf[..]))), remaining, buf[..])
  {
    if kind == 2 {
      p := CopyBgrInto(line, buf, count, remaining, dc, off);
    } else if kind == 3 {
      if |line| < dc + 3 {
        return Panicked(IndexOutOfRange);
      }
      p := FillInto(buf, count, BgrPixel(line, dc), remaining, dc + 3, off);
    } else if kind == 4 {
      p := CopyAbgrInto(line, buf, count, remaining, dc, off);
    } else if kind == 5 {
      if |line| < dc + 4 {
        return Panicked(IndexOutOfRange);
      }
      p := FillInto(buf, count, AbgrPixel(line, dc), remaining, dc + 4, off);
    } else if count < 0 {
      if count == I32_MIN || off < -count * 4 {
        return Panicked(ArithmeticOverflow);
      }
      p := Ok(Pos(dc, off - -count * 4));
    } else {
      if off + count * 4 > USIZE_MAX {
        return Panicked(ArithmeticOverflow);
      }
      p := Ok(Pos(dc, off + count * 4));
    }
  }

  /** The loop variables of `decode_line` other than the buffer. */
  datatype LoopVars = LoopVars(dc: nat, remaining: i32, off: usize)

  /** The state an in-place step leaves: its loop variables with the
      buffer's bytes, or its failure. */
  function StateOf(r: Result<LoopVars>, buf: seq<u8>): Result<State> {
    match r
    case Ok(c) => Ok(State(c.dc, c.remaining, c.off, buf))
    case Err(e) => Err(e)
    case Panicked(p) => Panicked(p)
  }

  /** One iteration of `decode_line`'s loop (s25.rs:205-314) on the buffer
      itself, exactly as Step says. */
  method StepInto(line: seq<u8>, buf: array<u8>, dc: nat, remaining: i32, off: usize) returns (r: Result<LoopVars>)
    requires remaining > 0 && dc < |line|
    modifies buf
    ensures StateOf(r, buf[..]) == Step(line, State(dc, remaining, off, old(buf[..])))
  {
    var c := ReadChunk(line, dc, remaining);
    if !c.Ok? {
      return c.Cast();
    }
    var left := remaining - c.value.count;
    var p := ApplyInto(line, buf, c.value.kind, c.value.count, left, c.value.dc, off);
    if !p.Ok? {
      return p.Cast();
    }
    r := Ok(LoopVars(p.value.dc, left, p.value.off));
  }

  /** The canvas an in-place decode leaves: its cursor with the buffer's
      bytes, or its failure. */
  function WithBuffer(r: Result<usize>, buf: seq<u8>): Result<Canvas> {
    match r
    case Ok(o) => Ok(Canvas(o, buf))
    case Err(e) => Err(e)
    case Panicked(p) => Panicked(p)
  }

  /** `decode_line` (s25.rs:197-316) on the buffer itself: the pixel cursor
      and the buffer after the row, or the panic that stops it, exactly as
      DecodeLine says. */
  method DecodeLineInto(line: seq<u8>, buf: array<u8>, offset: usize, width: i32) returns (r: Result<usize>)
    modifies buf
    ensures WithBuffer(r, buf[..]) == DecodeLine(line, width, Canvas(offset, old(buf[..])))
  {
    var cur := LoopVars(0, width, offset);
    ghost var goal := Run(line, State(0, width, offset, buf[..]));
    while cur.remaining > 0 && cur.dc < |line|
      invariant Run(line, State(cur.dc, cur.remaining, cur.off, buf[..])) == goal
      decreases if cur.dc < |line| then |line| - cur.dc else 0
    {
      ghost var before := State(cur.dc, cur.remaining, cur.off, buf[..]);
      var next := StepInto(line, buf, cur.dc, cur.remaining, cur.off);
      if !next.Ok? {
        return next.Cast();
      }
      assert Step(line, before) == Ok(State(next.value.dc, next.value.remaining, next.value.off, buf[..]));
      cur := next.value;
    }
    return Ok(cur.off);
  }
}

=== FILE: s25.dfy ===
/** The `.s25` archive: its directory, the local header of an image entry,
    and the decoding of an entry's rows into an RGBA buffer.

    An archive starts with the magic `S25\0`, an `i32` entry count and one
    `i32` file offset per entry (0 for an absent entry).  An image entry
    starts with five `i32` words (width, height, x and y offsets, flags
    whose bit 31 marks an incremental image) followed by `height` row
    offsets; each row is a 16-bit length and that many bytes of chunks for
    `decode_line`.

    Each operation has a function saying what it yields for the archive
    bytes (`Directory`, `MetadataAt`, `Unpacked`, `ImageAt`) and a method
    of the class `Archive` that does it through the byte cursor and is
    proved to yield exactly that. */
module S25 {
  import opened Bytes
  import opened Errors
  import opened Io
  import opened LineDecoder

  /** `S25_MAGIC`. */
  const MAGIC: seq<u8> := [0x53, 0x32, 0x35, 0x00]
  /** `S25_BYTES_PER_PIXEL`. */
  const BYTES_PER_PIXEL: nat := 4
  /** The size of an entry's local header: five `i32` words. */
  const HEADER_SIZE: nat := 0x14

  datatype Option<+T> = None | Some(value: T)

  /** A directory word as an entry: 0 marks an absent entry. */
  function EntryOf(word: i32): Option<i32> {
    if word == 0 then None else Some(word)
  }

  /** The entry of a 4-byte directory word is absent exactly when the word
      is four zero bytes, and is otherwise the offset that encodes to it. */
  lemma EntryOfWord(w: seq<u8>)
    requires |w| == 4
    ensures EntryOf(LeI32(w)).None? <==> w == [0, 0, 0, 0]
    ensures EntryOf(LeI32(w)).Some? ==> EncodeI32(EntryOf(LeI32(w)).value) == w
  {
    I32Bytes(w);
    ZeroWord(LeI32(w));
  }

  /** The entries of a list of directory words, one each. */
  function Entries(words: seq<i32>): (r: seq<Option<i32>>)
    ensures |r| == |words|
    ensures forall i :: 0 <= i < |words| ==> r[i] == EntryOf(words[i])
  {
    if words == [] then [] else [EntryOf(words[0])] + Entries(words[1..])
  }

  /** The directory `from_raw_bytes` reads from the archive bytes (s25.rs:67-87). */
  function Directory(bytes: seq<u8>): (r: Result<seq<Option<i32>>>)
    ensures !r.Panicked?
    ensures r.Ok? ==> |bytes| >= 8 && bytes[..4] == MAGIC
  {
    var magic := ReadAt(bytes, 0, 4);
    if !magic.Ok? then magic.Cast()
    else if magic.value != MAGIC then Err(InvalidArchive)
    else
      var total := ReadI32At(bytes, 4);
      if !total.Ok? then total.Cast()
      else
        var words := ReadI32s(bytes, 8, Max0(total.value));
        if words.Ok? then Ok(Entries(words.value)) else words.Cast()
  }

  /** The number of entries an archive's header announces. */
  function Announced(bytes: seq<u8>): nat
    requires |bytes| >= 8
  {
    Max0(LeI32(bytes[4..8]))
  }

  /** Opening fails with an I/O error below 4 bytes, with `InvalidArchive`
      on a wrong magic, with an I/O error below 8 bytes or on a truncated
      directory; otherwise it yields max(count, 0) entries, entry i absent
      exactly when the i-th directory word is 0 and otherwise that word. */
  lemma DirectoryShape(bytes: seq<u8>)
    ensures var r := Directory(bytes);
      && (|bytes| < 4 ==> r == Err(IoError))
      && (|bytes| >= 4 && bytes[..4] != MAGIC ==> r == Err(InvalidArchive))
      && (|bytes| >= 4 && bytes[..4] == MAGIC && |bytes| < 8 ==> r == Err(IoError))
      && (|bytes| >= 8 && bytes[..4] == MAGIC ==>
            && (r.Ok? <==> 8 + 4 * Announced(bytes) <= |bytes|)
            && (!r.Ok? ==> r == Err(IoError)))
      && (r.Ok? ==>
            && |bytes| >= 8 && bytes[..4] == MAGIC
            && |r.value| == Announced(bytes)
            && forall i :: 0 <= i < |r.value| ==>
                 var word := bytes[8 + 4 * i..8 + 4 * i + 4];
                 && (r.value[i].None? <==> word == [0, 0, 0, 0])
                 && (r.value[i].Some? ==> EncodeI32(r.value[i].value) == word))
  {
    DirectoryFailures(bytes);
    if Directory(bytes).Ok? {
      DirectoryWords(bytes);
    }
  }

  /** The failure cases of DirectoryShape. */
  lemma DirectoryFailures(bytes: seq<u8>)
    ensures var r := Directory(bytes);
      && (|bytes| < 4 ==> r == Err(IoError))
      && (|bytes| >= 4 && bytes[..4] != MAGIC ==> r == Err(InvalidArchive))
      && (|bytes| >= 4 && bytes[..4] == MAGIC && |bytes| < 8 ==> r == Err(IoError))
      && (|bytes| >= 8 && bytes[..4] == MAGIC ==>
            && (r.Ok? <==> 8 + 4 * Announced(bytes) <= |bytes|)
            && (!r.Ok? ==> r == Err(IoError)))
  {
    if |bytes| < 4 {
      assert Directory(bytes) == Err(IoError);
    } else if bytes[..4] != MAGIC {
      assert ReadAt(bytes, 0, 4) == Ok(bytes[..4]);
    } else if |bytes| < 8 {
      assert ReadI32At(bytes, 4) == Err(IoError);
    } else {
      assert ReadAt(bytes, 0, 4) == Ok(MAGIC);
      assert ReadI32At(bytes, 4) == Ok(LeI32(bytes[4..8]));
      ReadI32sFails(bytes, 8, Announced(bytes));
    }
  }

  /** The entries case of DirectoryShape. */
  lemma DirectoryWords(bytes: seq<u8>)
    requires Directory(bytes).Ok?
    ensures var r := Directory(bytes);
      && |r.value| == Announced(bytes)
      && 8 + 4 * |r.value| <= |bytes|
      && forall i :: 0 <= i < |r.value| ==>
           var word := bytes[8 + 4 * i..8 + 4 * i + 4];
           && (r.value[i].None? <==> word == [0, 0, 0, 0])
           && (r.value[i].Some? ==> EncodeI32(r.value[i].value) == word)
  {
    var n := Announced(bytes);
    assert ReadAt(bytes, 0, 4) == Ok(MAGIC);
    assert ReadI32At(bytes, 4) == Ok(LeI32(bytes[4..8]));
    DirectoryFailures(bytes);
    ReadI32sFails(bytes, 8, n);
    assert Directory(bytes).value == Entries(ReadI32s(bytes, 8, n).value);
    EntriesWords(bytes, 8, n);
  }

  /** Entry i of the entries of n directory words read at pos is absent
      exactly when the i-th word's bytes are all 0, and otherwise encodes
      to those bytes. */
  lemma EntriesWords(data: seq<u8>, pos: nat, n: nat)
    requires ReadI32s(data, pos, n).Ok?
    ensures var entries := Entries(ReadI32s(data, pos, n).value);
      && |entries| == n
      && (n > 0 ==> pos + 4 * n <= |data|)
      && forall i :: 0 <= i < n ==>
           var word := data[pos + 4 * i..pos + 4 * i + 4];
           && (entries[i].None? <==> word == [0, 0, 0, 0])
           && (entries[i].Some? ==> EncodeI32(entries[i].value) == word)
  {
    var words := ReadI32s(data, pos, n).value;
    ReadI32sFails(data, pos, n);
    forall i | 0 <= i < n
      ensures var word := data[pos + 4 * i..pos + 4 * i + 4];
        && (EntryOf(words[i]).None? <==> word == [0, 0, 0, 0])
        && (EntryOf(words[i]).Some? ==> EncodeI32(EntryOf(words[i]).value) == word)
    {
      ReadI32sWord(data, pos, n, i);
      EntryOfWord(data[pos + 4 * i..pos + 4 * i + 4]);
    }
  }

  /** A list holding, for each announced directory word, its entry is the
      directory, provided the archive is long enough to hold them all. */
  lemma DirectoryEntries(bytes: seq<u8>, entries: seq<Option<i32>>)
    requires |bytes| >= 8 && bytes[..4] == MAGIC && 8 + 4 * Announced(bytes) <= |bytes|
    requires |entries| == Announced(bytes)
    requires forall j :: 0 <= j < |entries| ==> entries[j] == EntryOf(LeI32(bytes[8 + 4 * j..8 + 4 * j + 4]))
    ensures Directory(bytes) == Ok(entries)
  {
    var n := Announced(bytes);
    assert ReadAt(bytes, 0, 4).value == MAGIC;
    assert ReadI32At(bytes, 4).value == LeI32(bytes[4..8]);
    ReadI32sFails(bytes, 8, n);
    var words := ReadI32s(bytes, 8, n).value;
    forall j | 0 <= j < n
      ensures entries[j] == Entries(words)[j]
    {
      ReadI32sWord(bytes, 8, n, j);
    }
    assert entries == Entries(words);
  }

  /** An image entry's local header (`S25ImageMetadata`). */
  datatype Metadata = Metadata(
    width: i32,
    height: i32,
    offsetX: i32,
    offsetY: i32,
    incremental: bool,
    head: i32)

  /** What `load_image_metadata(entry)` yields (s25.rs:121-145). */
  function MetadataAt(data: seq<u8>, entries: seq<Option<i32>>, entry: nat): (r: Result<Metadata>)
    ensures r.Err? ==> r.error == NoEntry || r.error == IoError
    ensures r.Panicked? ==> r.panic == ArithmeticOverflow
  {
    if entry >= |entries| || entries[entry].None? then Err(NoEntry)
    else
      var offset := entries[entry].value;
      var words := ReadI32s(data, AsU64(offset), 5);
      if !words.Ok? then words.Cast()
      else if offset + HEADER_SIZE > I32_MAX then Panicked(ArithmeticOverflow)
      else
        var w := words.value;
        Ok(Metadata(w[0], w[1], w[2], w[3], AsU32(w[4]) >= 0x8000_0000, offset + HEADER_SIZE))
  }

  /** `NoEntry` exactly for an index past the directory or an absent entry;
      otherwise success exactly when the header lies in the archive and
      `head` fits an `i32`, yielding the five words at the entry's offset, `incremental` exactly
      when bit 7 of the last header byte (bit 31 of the flags) is set, and
      `head` just past the header.  A negative offset reads nothing (its
      `u64` reinterpretation is past any slice) and fails with an I/O error,
      a header running past the end fails with an I/O error, and a header
      ending past `i32::MAX` overflows computing `head`. */
  lemma MetadataFields(data: seq<u8>, entries: seq<Option<i32>>, entry: nat)
    requires |data| <= ISIZE_MAX
    ensures var r := MetadataAt(data, entries, entry);
      && (r == Err(NoEntry) <==> entry >= |entries| || entries[entry].None?)
      && (entry < |entries| && entries[entry].Some? ==>
            var off := entries[entry].value;
            && (off < 0 ==> r == Err(IoError))
            && (0 <= off && |data| < off + HEADER_SIZE ==> r == Err(IoError))
            && (0 <= off && off + HEADER_SIZE <= |data| && off + HEADER_SIZE <= I32_MAX ==> r.Ok?)
            && (r.Panicked? <==> I32_MAX - HEADER_SIZE < off && off + HEADER_SIZE <= |data|)
            && (r.Ok? ==>
                  && 0 <= off && off + HEADER_SIZE <= |data|
                  && EncodeI32(r.value.width) == data[off..off + 4]
                  && EncodeI32(r.value.height) == data[off + 4..off + 8]
                  && EncodeI32(r.value.offsetX) == data[off + 8..off + 12]
                  && EncodeI32(r.value.offsetY) == data[off + 12..off + 16]
                  && (r.value.incremental <==> data[off + 19] >= 0x80)
                  && r.value.head == off + HEADER_SIZE))
  {
    if entry < |entries| && entries[entry].Some? {
      var off := entries[entry].value;
      var p := AsU64(off);
      ReadI32sShape(data, p, 5);
      var r := MetadataAt(data, entries, entry);
      if r.Ok? {
        var w := ReadI32s(data, p, 5).value;
        assert EncodeI32(w[1]) == data[p + 4..p + 8];
        assert EncodeI32(w[2]) == data[p + 8..p + 12];
        assert EncodeI32(w[3]) == data[p + 12..p + 16];
        ReadI32sWord(data, p, 5, 4);
        SignBit(data[p + 16..p + 20]);
      }
    }
  }

  /** Five `read_i32` calls in a row, word by word. */
  lemma ReadFive(data: seq<u8>, p: nat)
    ensures ReadI32s(data, p, 5) ==
      if p + HEADER_SIZE <= |data| then
        Ok([ReadI32At(data, p).value, ReadI32At(data, p + 4).value, ReadI32At(data, p + 8).value,
            ReadI32At(data, p + 12).value, ReadI32At(data, p + 16).value])
      else Err(IoError)
  {
    ReadI32sFails(data, p, 5);
    if p + HEADER_SIZE <= |data| {
      ReadI32sWord(data, p, 5, 0);
      ReadI32sWord(data, p, 5, 1);
      ReadI32sWord(data, p, 5, 2);
      ReadI32sWord(data, p, 5, 3);
      ReadI32sWord(data, p, 5, 4);
      var w := ReadI32s(data, p, 5).value;
      assert w == [w[0], w[1], w[2], w[3], w[4]];
    }
  }

  /** A decoded image (`S25Image`). */
  datatype Image = Image(metadata: Metadata, rgba: seq<u8>)

  /** The bytes of the row whose offset is rowOffset, as `unpack` reads them
      (s25.rs:181-192): a 16-bit length, then for an odd offset one padding
      byte and the length with bit 0 cleared, then the row itself. */
  function ReadRow(data: seq<u8>, rowOffset: nat): (r: Result<seq<u8>>)
    ensures !r.Ok? ==> r == Err(IoError)
  {
    var length := ReadI16At(data, rowOffset);
    if !length.Ok? then length.Cast()
    else
      var len := AsU16(length.value);
      if rowOffset % 2 != 0 then
        var pad := ReadAt(data, rowOffset + 2, 1);
        if !pad.Ok? then pad.Cast()
        else ReadAt(data, rowOffset + 3, len - len % 2)
      else ReadAt(data, rowOffset + 2, len)
  }

  /** A row is the bytes after its length word (and after the padding byte
      of an odd offset), as many as the unsigned length says, rounded down
      to even for an odd offset; reading fails with an I/O error exactly
      when the archive ends before them. */
  lemma ReadRowShape(data: seq<u8>, rowOffset: nat)
    ensures var r := ReadRow(data, rowOffset);
      && (rowOffset + 2 > |data| ==> r == Err(IoError))
      && (rowOffset + 2 <= |data| ==>
            var len := LeValue(data[rowOffset..rowOffset + 2]);
            var start := rowOffset + 2 + rowOffset % 2;
            var n := if rowOffset % 2 != 0 then len - len % 2 else len;
            && (r.Ok? <==> start + n <= |data|)
            && (!r.Ok? ==> r == Err(IoError))
            && (r.Ok? ==> r.value == data[start..start + n] && |r.value| % 2 == (if rowOffset % 2 != 0 then 0 else len % 2)))
  {
    if rowOffset + 2 <= |data| {
      AsU16OfLeI16(data[rowOffset..rowOffset + 2]);
    }
  }

  /** `unpack`'s loop over the rows (s25.rs:180-195): each row is read and
      decoded from where the previous row left the pixel cursor. */
  function DecodeRows(data: seq<u8>, rows: seq<nat>, width: i32, c: Canvas): (r: Result<Canvas>)
    ensures r.Err? ==> r.error == IoError
    ensures r.Panicked? ==> r.panic != CapacityOverflow
    ensures r.Ok? ==> |r.value.buf| == |c.buf|
    decreases |rows|
  {
    if rows == [] then Ok(c)
    else
      var line := ReadRow(data, rows[0]);
      if !line.Ok? then line.Cast()
      else
        var next := DecodeLine(line.value, width, c);
        if next.Ok? then DecodeRows(data, rows[1..], width, next.value) else next
  }

  /** The cursor carries over: decoding rows a then rows b is decoding a + b. */
  lemma {:induction false} DecodeRowsAppend(data: seq<u8>, a: seq<nat>, b: seq<nat>, width: i32, c: Canvas)
    ensures var ra := DecodeRows(data, a, width, c);
      DecodeRows(data, a + b, width, c) == if ra.Ok? then DecodeRows(data, b, width, ra.value) else ra
    decreases |a|
  {
    if a == [] {
      assert a + b == b;
    } else {
      assert (a + b)[0] == a[0] && (a + b)[1..] == a[1..] + b;
      var line := ReadRow(data, a[0]);
      if line.Ok? {
        var next := DecodeLine(line.value, width, c);
        if next.Ok? {
          DecodeRowsAppend(data, a[1..], b, width, next.value);
        }
      }
    }
  }

  /** The rows are decoded in order from one shared pixel cursor: the last
      row is decoded from the canvas, cursor included, that the rows before
      it leave. */
  lemma DecodeRowsLast(data: seq<u8>, a: seq<nat>, row: nat, width: i32, c: Canvas)
    ensures var ra := DecodeRows(data, a, width, c);
      var line := ReadRow(data, row);
      DecodeRows(data, a + [row], width, c) ==
        if !ra.Ok? then ra
        else if !line.Ok? then line.Cast()
        else DecodeLine(line.value, width, ra.value)
  {
    DecodeRowsAppend(data, a, [row], width, c);
    var ra := DecodeRows(data, a, width, c);
    if ra.Ok? {
      var line := ReadRow(data, row);
      if line.Ok? {
        var next := DecodeLine(line.value, width, ra.value);
        if next.Ok? {
          assert [row][1..] == [];
        }
      }
    }
  }

  /** `row_offset as u32` of each row word. */
  function RowOffsets(words: seq<i32>): (r: seq<nat>)
    ensures |r| == |words|
    ensures forall i :: 0 <= i < |words| ==> r[i] == AsU32(words[i])
  {
    if words == [] then [] else [AsU32(words[0])] + RowOffsets(words[1..])
  }

  /** What `unpack(metadata, buf)` leaves in a buffer holding buf
      (s25.rs:159-196): an incremental image is refused, a negative height
      or width overflows `Vec::with_capacity`, the row table must be
      readable, and then the rows are decoded from cursor 0. */
  function Unpacked(data: seq<u8>, m: Metadata, buf: seq<u8>): (r: Result<seq<u8>>)
    ensures r.Ok? ==> |r.value| == |buf|
  {
    if m.incremental then Err(UnsupportedFileFormat)
    else if m.height < 0 then Panicked(CapacityOverflow)
    else
      var words := ReadI32s(data, AsU64(m.head), m.height);
      if !words.Ok? then words.Cast()
      else if m.width < 0 then Panicked(CapacityOverflow)
      else
        var c := DecodeRows(data, RowOffsets(words.value), m.width, Canvas(0, buf));
        if c.Ok? then Ok(c.value.buf) else c.Cast()
  }

  /** `unpack` refuses an incremental image and nothing else with
      `UnsupportedFileFormat`; it overflows `Vec::with_capacity` exactly for
      a negative height, or for a negative width once the `height` row words
      at `head` are read; it fails with an I/O error when those words run
      past the end; and it succeeds only for a non-incremental image of
      non-negative size whose row table lies in the archive. */
  lemma UnpackedShape(data: seq<u8>, m: Metadata, buf: seq<u8>)
    ensures var r := Unpacked(data, m, buf);
      var table := m.height > 0 ==> AsU64(m.head) + 4 * m.height <= |data|;
      && (r == Err(UnsupportedFileFormat) <==> m.incremental)
      && (r.Err? ==> r.error == UnsupportedFileFormat || r.error == IoError)
      && (r == Panicked(CapacityOverflow) <==> !m.incremental && (m.height < 0 || (table && m.width < 0)))
      && (!m.incremental && m.height >= 0 && !table ==> r == Err(IoError))
      && (r.Ok? ==> !m.incremental && m.height >= 0 && m.width >= 0 && table)
  {
    if !m.incremental && m.height >= 0 {
      ReadI32sFails(data, AsU64(m.head), m.height);
    }
  }

  /** n zero bytes: `vec![0u8; n]`. */
  function Zeros(n: nat): seq<u8> {
    seq(n, _ => 0)
  }

  /** What `load_image(entry)` yields (s25.rs:147-157): the product
      `width * height` must fit an `i32` and be non-negative (a negative one
      overflows `as usize * 4`), and the rows are decoded into that many
      zeroed pixels. */
  function ImageAt(data: seq<u8>, entries: seq<Option<i32>>, entry: nat): (r: Result<Image>)
    ensures r.Ok? ==> MetadataAt(data, entries, entry) == Ok(r.value.metadata) && !r.value.metadata.incremental
  {
    var m := MetadataAt(data, entries, entry);
    if !m.Ok? then m.Cast()
    else
      var pixels := m.value.width * m.value.height;
      if !InI32(pixels) || pixels < 0 then Panicked(ArithmeticOverflow)
      else
        var u := Unpacked(data, m.value, Zeros(pixels * BYTES_PER_PIXEL));
        if u.Ok? then Ok(Image(m.value, u.value)) else u.Cast()
  }

  /** A loaded image has exactly width * height RGBA pixels. */
  lemma ImageSize(data: seq<u8>, entries: seq<Option<i32>>, entry: nat)
    requires ImageAt(data, entries, entry).Ok?
    ensures var img := ImageAt(data, entries, entry).value;
      |img.rgba| == img.metadata.width * img.metadata.height * BYTES_PER_PIXEL
  {
  }

  /** Every incremental entry whose pixel count fits is refused with
      `UnsupportedFileFormat`. */
  lemma IncrementalRefused(data: seq<u8>, entries: seq<Option<i32>>, entry: nat)
    requires MetadataAt(data, entries, entry).Ok? && MetadataAt(data, entries, entry).value.incremental
    ensures var m := MetadataAt(data, entries, entry).value;
      ImageAt(data, entries, entry) ==
        if InI32(m.width * m.height) && m.width * m.height >= 0 then Err(UnsupportedFileFormat)
        else Panicked(ArithmeticOverflow)
  {
  }

  /** An `S25Archive` over in-memory bytes. */
  class Archive {
    const file: Reader
    var entries: seq<Option<i32>>

    constructor (file: Reader, entries: seq<Option<i32>>)
      ensures this.file == file && this.entries == entries
    {
      this.file := file;
      this.entries := entries;
    }

    /** `from_raw_bytes` (s25.rs:61-88). */
    static method FromRawBytes(bytes: seq<u8>) returns (r: Result<Archive>)
      ensures Directory(bytes).Ok? <==> r.Ok?
      ensures r.Ok? ==> fresh(r.value) && fresh(r.value.file)
      ensures r.Ok? ==> r.value.file.data == bytes && r.value.entries == Directory(bytes).value
      ensures !r.Ok? ==> SameFailure(r, Directory(bytes))
      ensures r.Ok? ==> r.value.file.pos == 8 + 4 * |r.value.entries|
    {
      var file := new Reader(bytes);
      var magic := file.ReadExact(4);
      if !magic.Ok? {
        return magic.Cast();
      }
      if magic.value != MAGIC {
        return Err(InvalidArchive);
      }
      var total := file.ReadI32();
      if !total.Ok? {
        return total.Cast();
      }
      ghost var n := Max0(total.value);
      ReadI32sFails(bytes, 8, n);
      var entries: seq<Option<i32>> := [];
      var i: int := 0;
      while i < total.value
        invariant 0 <= i <= n && file.pos == 8 + 4 * i <= |bytes| && fresh(file) && file.data == bytes
        invariant |entries| == i
        invariant forall j :: 0 <= j < i ==> entries[j] == EntryOf(LeI32(bytes[8 + 4 * j..8 + 4 * j + 4]))
      {
        var offset := file.ReadExact(4);
        if !offset.Ok? {
          return offset.Cast();
        }
        entries := entries + [EntryOf(LeI32(offset.value))];
        i := i + 1;
      }
      DirectoryEntries(bytes, entries);
      var archive := new Archive(file, entries);
      r := Ok(archive);
    }

    /** `total_entries`. */
    function TotalEntries(): nat
      reads this
    {
      |entries|
    }

    /** `total_layers` (s25.rs:96-98): entries come in layers of 100, and
        there is always at least one layer. */
    function TotalLayers(): (n: nat)
      reads this
      ensures n >= 1 && (n - 1) * 100 <= TotalEntries() < n * 100
    {
      TotalEntries() / 100 + 1
    }

    /** `load_image_metadata` (s25.rs:121-145). */
    method LoadImageMetadata(entry: nat) returns (r: Result<Metadata>)
      modifies file
      ensures r == MetadataAt(file.data, entries, entry)
      ensures r.Ok? ==> file.pos == AsU64(entries[entry].value) + HEADER_SIZE
    {
      if entry >= |entries| || entries[entry].None? {
        return Err(NoEntry);
      }
      var offset := entries[entry].value;
      ReadFive(file.data, AsU64(offset));
      file.Seek(AsU64(offset));
      var width := file.ReadI32();
      if !width.Ok? {
        return width.Cast();
      }
      var height := file.ReadI32();
      if !height.Ok? {
        return height.Cast();
      }
      var offsetX := file.ReadI32();
      if !offsetX.Ok? {
        return offsetX.Cast();
      }
      var offsetY := file.ReadI32();
      if !offsetY.Ok? {
        return offsetY.Cast();
      }
      var flags := file.ReadI32();
      if !flags.Ok? {
        return flags.Cast();
      }
      var head: int := offset + HEADER_SIZE;
      if head > I32_MAX {
        return Panicked(ArithmeticOverflow);
      }
      var incremental := AsU32(flags.value) >= 0x8000_0000;
      r := Ok(Metadata(width.value, height.value, offsetX.value, offsetY.value, incremental, head));
    }

    /** The head of `unpack`'s row loop (s25.rs:181-190): seek to the row,
        read its length, skip the padding byte of an odd offset, read the row. */
    method ReadRowBytes(rowOffset: u64) returns (r: Result<seq<u8>>)
      modifies file
      ensures r == ReadRow(file.data, rowOffset)
      ensures r.Ok? ==> file.pos == rowOffset + 2 + rowOffset % 2 + |r.value|
    {
      file.Seek(rowOffset);
      var length := file.ReadI16();
      if !length.Ok? {
        return length.Cast();
      }
      var len: nat := AsU16(length.value);
      if rowOffset % 2 != 0 {
        var pad := file.ReadExact(1);
        if !pad.Ok? {
          return pad.Cast();
        }
        len := len - len % 2;
      }
      r := file.ReadExact(len);
    }

    /** `unpack_incremental` (s25.rs:319-324): incremental images are not
        supported, and nothing is written. */
    function UnpackIncremental(m: Metadata, buf: seq<u8>): Result<()> {
      Err(UnsupportedFileFormat)
    }

    /** `unpack` (s25.rs:159-196): the buffer ends as Unpacked says, and an
        incremental image is refused before any pixel is written. */
    method Unpack(m: Metadata, buf: array<u8>) returns (r: Result<()>)
      modifies file, buf
      ensures var u := Unpacked(file.data, m, old(buf[..]));
        match r
        case Ok(_) => u == Ok(buf[..])
        case _ => SameFailure(r, u)
      ensures m.incremental ==> buf[..] == old(buf[..])
    {
      file.Seek(AsU64(m.head));
      if m.incremental {
        r := UnpackIncremental(m, buf[..]);
        return;
      }
      if m.height < 0 {
        return Panicked(CapacityOverflow);
      }
      ghost var data := file.data;
      ghost var head := AsU64(m.head);
      ReadI32sFails(data, head, m.height);
      var rows: seq<nat> := [];
      var i: int := 0;
      while i < m.height
        invariant 0 <= i <= m.height && file.pos == head + 4 * i && (i > 0 ==> head + 4 * i <= |data|)
        invariant |rows| == i
        invariant forall j :: 0 <= j < i ==> rows[j] == AsU32(LeI32(data[head + 4 * j..head + 4 * j + 4]))
        invariant buf[..] == old(buf[..])
      {
        var word := file.ReadI32();
        if !word.Ok? {
          return word.Cast();
        }
        rows := rows + [AsU32(word.value)];
        i := i + 1;
      }
      if m.width < 0 {
        return Panicked(CapacityOverflow);
      }
      ghost var words := ReadI32s(data, head, m.height).value;
      forall j | 0 <= j < m.height
        ensures rows[j] == RowOffsets(words)[j]
      {
        ReadI32sWord(data, head, m.height, j);
      }
      assert rows == RowOffsets(words);
      var offset: usize := 0;
      var k := 0;
      while k < |rows|
        invariant 0 <= k <= |rows|
        invariant DecodeRows(data, rows[k..], m.width, Canvas(offset, buf[..]))
               == DecodeRows(data, rows, m.width, Canvas(0, old(buf[..])))
      {
        assert rows[k..][1..] == rows[k + 1..];
        var line := ReadRowBytes(rows[k]);
        if !line.Ok? {
          return line.Cast();
        }
        var next := DecodeLineInto(line.value, buf, offset, m.width);
        if !next.Ok? {
          return next.Cast();
        }
        offset := next.value;
        k := k + 1;
      }
      return Ok(());
    }

    /** `load_image` (s25.rs:147-157). */
    method LoadImage(entry: nat) returns (r: Result<Image>)
      modifies file
      ensures r == ImageAt(file.data, entries, entry)
    {
      var m := LoadImageMetadata(entry);
      if !m.Ok? {
        return m.Cast();
      }
      var metadata := m.value;
      var pixels := metadata.width * metadata.height;
      if !InI32(pixels) || pixels < 0 {
        return Panicked(ArithmeticOverflow);
      }
      var buf := new u8[pixels * BYTES_PER_PIXEL](_ => 0);
      assert buf[..] == Zeros(pixels * BYTES_PER_PIXEL);
      var u := Unpack(metadata, buf);
      if !u.Ok? {
        return u.Cast();
      }
      r := Ok(Image(metadata, buf[..]));
    }
  }
}
